=== FILE: README.md ===
# zap list view, modelled in Dafny

zap is a terminal browser over a small registry of files the user has
registered. Each entry has a Name, Path, Type, Project, Description,
LastOpened time and Tags. This project models the part of zap that
keeps the view in step with the entry list:

- **Storage helpers:** the storage package's sort orders and its
  duplicate-path lookup (`storage.dfy`, on a deterministic sort in
  `sorting.dfy`).
- **Entry helpers:** the file-type detector, structural identity and the
  validity check on an entry (`records.dfy`, with ASCII case handling in
  `text.dfy`).
- **Table rows:** `updateTable` sorts the entries by project, then by
  name, ignoring case. It inserts a header row whenever the displayed
  project changes and builds the parallel index map from display rows to
  sorted positions, with -1 marking a header (`table.dfy`).
- **Column layout:** `adjustLayout` chooses the visible columns and the
  horizontal scroll window (`layout.dfy`).
- **Resolvers:** the three display-index resolvers turn a table row back
  into an entry, or an entry into its row (`resolver.dfy`).
- **Key handling:** edit mode, delete confirmation, add/delete/open/scroll
  in normal mode, and the top-level `Update` dispatch. Each handler is a
  pure function from a model value to a `Step`, which is either the next
  model and a command or `Panic` for Go's index-out-of-range
  (`app.dfy`).
- **Session properties:** properties over several messages, chiefly that
  every message keeps the model's invariant (`session.dfy`).

The program's collaborators reach the model through parameters:

- Reading the registry file gives `Env.loaded`.
- Expanding "~/" is done by `Env.expand`.
- The table widget's cursor after it handles a key is `Env.cursorAfter`.
- The text input's value after it handles a key is `Env.inputAfter`.
- Launching an editor is the command `OpenEditor`.

Saving to disk is not modelled. Every save in the source follows an
in-memory change that the model does keep.

The list view has no search mode or fuzzy matching, and no
required-field validation or duplicate-path check on commit.
`internal/ui/help.go` defines a help screen that lists the '/', 's' and
'?' keys, but `main.go` never shows it and handles none of those keys.
`EnterCanInvalidate` shows that an entry without a name can be stored.
The resolvers signal a missing row with -1 or nil, not an error value.

## Model

| member | source | states |
|---|---|---|
| Records.DetectFileType | internal/models/config.go:26-58 | The detected type is always one of the thirteen type tags; it is "txt" for a path without an extension or with an extension outside the sixteen recognised ones |
| Records.DetectFileTypeIgnoresCase | internal/models/config.go:27 | The extension is lower-cased before the switch, so lower-casing the whole path never changes the detected type |
| Records.DetectFileTypeOfSuffix | internal/models/config.go:27-58 | For a path whose last element ends in "." plus a suffix without '.' or '/', the type depends only on the lower-cased "." plus that suffix |
| Records.ExtEmptyIffNoDot | internal/models/config.go:26 | The extension is empty exactly when the last path element holds no '.', as `filepath.Ext` takes it from the last '.' after the last '/' |
| Records.KnownExtension | internal/models/config.go:26-58 | Any stem followed by "." and lower-case letters is typed by that extension alone, whatever the stem holds |
| Records.YmlIsYaml | internal/models/config.go:31-32 | ".yml" and ".yaml" both give "yaml" on any stem |
| Records.ConfIsIni | internal/models/config.go:35-36 | ".conf" and ".ini" both give "ini" on any stem |
| Records.MarkdownIsMd | internal/models/config.go:39-40 | ".md" and ".markdown" both give "markdown" on any stem |
| Records.DetectFileTypeNoExtension | internal/models/config.go:55-56 | A path with no '.' anywhere falls to the default "txt" |
| Records.EqualsIsEquivalence | internal/models/config.go:61-65 | Structural equality is reflexive, symmetric and transitive |
| Records.EqualsIgnoresOtherFields | internal/models/config.go:61-65 | Changing Type, Description, LastOpened or Tags never changes whether two entries are equal |
| Records.WithField | main.go:334-345 | Storing into form column k sets exactly that field (Name, Project, Type, Path, Description for k = 0..4); every other field, LastOpened and Tags are kept; any other k changes nothing |
| Records.WithOwnField | main.go:334-345 | Storing a field's own value back into that field leaves the entry unchanged |
| Sorting.Sort | internal/storage/storage.go:80-98 | The sort returns a permutation of its input, of the same length, in which no entry is strictly before its predecessor under the chosen order's "less" |
| Sorting.SortIdempotent | internal/storage/storage.go:76-101 | Sorting an already sorted list returns it unchanged |
| Storage.SortConfigs | internal/storage/storage.go:76-101 | The result is a permutation of the input in which every earlier entry has a lower-cased display project (empty reads as "General") smaller than, or equal with a name at most, that of every later entry |
| Storage.SortByRecentlyOpened | internal/storage/storage.go:104-113 | A permutation of the input with LastOpened non-increasing across every pair of positions |
| Storage.SortByName | internal/storage/storage.go:116-125 | A permutation of the input ordered by lower-cased name across every pair of positions |
| Storage.SortByType | internal/storage/storage.go:128-143 | A permutation of the input ordered by lower-cased type, then lower-cased name, across every pair of positions |
| Storage.SortByPath | internal/storage/storage.go:146-155 | A permutation of the input ordered by lower-cased path across every pair of positions |
| Storage.FindDuplicates | internal/storage/storage.go:158-165 | Finds nothing exactly when no entry has that exact path; otherwise returns the first entry whose path matches exactly |
| Storage.ProjectGroupsContiguous | main.go:658-685 | After the project-then-name sort, entries whose display projects are equal ignoring case are contiguous: no entry of another group lies between two of them |
| Layout.GetColumnIndex | main.go:210-225 | A title maps to its position among Name, Project, Type, Path, Description, and to -1 exactly when it is none of them |
| Layout.ColumnIndexOfTitle | main.go:210-225 | Every one of the five titles maps back to its own position |
| Layout.Fit | main.go:236-249 | The greedy count takes the longest run of leading columns whose running width stays within the budget; one more column would exceed it |
| Layout.AdjustLayout | main.go:227-293 | Shows the greedy count of columns, or exactly one when none fits. In that case column 0's width is permanently set to width - 6. The scroll offset is kept unless the window would run past the last column, and then it is pulled back so the window ends there. Only the last visible column is widened, up to the available width, and the table height is max(height - 6, 5) |
| Layout.LayoutAt86Columns | main.go:227-293 | On an 86-column terminal the default columns show Name 25, Project 20 and Type widened to 35 |
| Layout.NameColumnStaysNarrow | main.go:251-258 | After a 10-column terminal the Name column is 4 wide, and it stays 4 wide when the terminal grows back to 100 |
| Layout.LayoutAt100Columns | main.go:227-293 | At the start size of 100 columns the view shows Name 25, Project 20 and Type widened to 49 |
| Layout.AdjustLayoutIdempotent | main.go:227-293 | When only column 0 has ever been narrowed, laying out again what `adjustLayout` produced, at the same size and clamped offset, changes nothing, and still only column 0 is narrowed |
| Table.RowCellsOfWindow | main.go:189-201 | A window of the standard columns starting at column `start` shows exactly the matching slice of the entry's Name, display project, Type, Path and Description |
| Table.HeaderCells | main.go:174-185 | A header row has one cell per visible column: the folder icon and the project in the first cell, blanks elsewhere |
| Table.UpdateTable | main.go:155-208 | The rows and the index map have the same length, and every index-map entry is -1 or a position of the sorted list |
| Table.UpdateTableShape | main.go:155-208 | The non-header entries of the index map are exactly 0, 1, ..., n-1 in order. Every -1 is immediately followed by a record row. A header sits above a record exactly when the record's display project differs, case-sensitively, from the previous record's. Record rows show their sorted entry's cells, and each header shows the display project of the record below it |
| Table.RecordPosition | main.go:165-206 | Every sorted position has a row showing it |
| Table.FirstRowIsHeader | main.go:162-187 | For a non-empty list row 0 is always a header, because no display project is empty |
| Table.CaseVariantsRepeatHeaders | main.go:173 | Projects "Alpha", "alpha", "Alpha" sort together, because sorting ignores case, but each still gets a header of its own, because the header test does not: the index map is [-1, 0, -1, 1, -1, 2] |
| Resolver.FirstMatch | main.go:755-761 | The match loop returns the lowest position structurally equal to the target, and -1 exactly when there is none |
| Resolver.OriginalIndex | main.go:736-763 | Gives -1 exactly for a row that is out of range, a header, or past the sorted list. Otherwise it gives the lowest position of the list equal (Name, Path, Project) to the sorted entry the row shows, and that search never fails |
| Resolver.ConfigAt | main.go:687-714 | Gives nothing exactly for the rows `getOriginalIndexByDisplayIndex` rejects; otherwise an entry of the list structurally equal to the row's sorted entry |
| Resolver.ConfigAtIsOriginalIndex | main.go:687-763 | The two row-to-entry resolvers agree: the entry found is the one at the position found |
| Resolver.FindDisplayIndex | main.go:716-734 | Returns the first row, skipping headers, whose sorted entry is structurally equal to the target, and -1 exactly when no row shows such an entry |
| Resolver.FindThenResolve | main.go:716-763 | Finding a target's row and resolving that row back yields the first entry structurally equal to the target |
| Resolver.DuplicatesIndistinguishable | main.go:755-761 | Of two structurally equal entries, no row ever resolves to the later one |
| Resolver.ResolvesExactlyRecordRows | main.go:736-763 | On the index map `updateTable` built, a row resolves to nothing exactly when it is a header or out of range |
| Resolver.FindComplete | main.go:716-734 | On the index map `updateTable` built, the search for any registered entry, or anything structurally equal to one, succeeds |
| Resolver.ReachableIffFirstOfIdentity | main.go:736-763 | On the index map `updateTable` built, position k is the resolution of some row exactly when no earlier entry is structurally equal to it |
| App.GoRem | main.go:470-491 | Go's remainder: `a == GoQuo(a, b) * b + r` with the quotient truncated toward zero, so the remainder takes the sign of the dividend and agrees with the mathematical one on non-negative dividends |
| App.RefreshTable | main.go:155-208 | Re-running `updateTable` on the model changes only the rows and the index map, and leaves them equal to the table built for the entries |
| App.ApplyLayout | main.go:227-293 | Re-running `adjustLayout` on the model sets the column list, the shown columns, the scroll offset and the table height to `AdjustLayout` of the model's columns, size and offset, changes nothing else, and leaves the model laid out for its own size and offset |
| App.Relayout | main.go:570-586 | Setting the offset then laying out and refreshing gives the columns, offset and table height of `AdjustLayout` at that offset and a table built for the entries, and keeps everything else |
| App.Init | main.go:65-125 | The start model (100x24, nothing edited or pending deletion, cursor 0, offset 0) satisfies the model invariant and is laid out for its size |
| App.StartEditAsWritten | main.go:295-326 | As written: for a non-empty list, edit mode is switched on and editRow is set to the resolver's answer even when that answer is -1 |
| App.StartEdit | main.go:295-326 | Corrected: on a record row, edit the Name field of the entry the row resolves to; anywhere else change nothing |
| App.SaveEdit | main.go:328-349 | When an existing row is being edited, only field editCol of that entry changes, to the typed value, with "~/" expanded for Path; the table is rebuilt. Otherwise nothing changes |
| App.CancelEdit | main.go:351-357 | Leaves edit mode with editRow, editCol -1 and an empty input; nothing else changes |
| App.MoveTo | main.go:471-486 | Moving the form to a field panics exactly when the edited row is not a position of the list; otherwise the input shows that field's value |
| App.Commit | main.go:463-466 | Enter saves the field and leaves edit mode with editRow, editCol -1 and an empty input, reporting the update; only the entries (as saving leaves them), the table and the edit fields change |
| App.SaveAndMove | main.go:467-508 | Tab or shift+tab saves the field and shows field `col` of the same entry; only the entries (as saving leaves them), the table, the field number and the input change, and it panics exactly when the edited row is not a position of the list |
| App.UpdateEdit | main.go:458-514 | esc cancels; enter is exactly `Commit`; tab and shift+tab are exactly `SaveAndMove` one field right or left modulo 5, so they change only the entries, the table, the field number and the input; a panic only happens on tab or shift+tab with a bad edit row; other keys go to the text input |
| App.Remove | main.go:437-438 | Deleting a position keeps the other entries in order and removes exactly that one entry from the multiset |
| App.UpdateDeleteConfirm | main.go:433-456 | y/Y is exactly `ConfirmDelete`: it removes the pending entry when its position is valid and reports its name; n/N/esc report "Deletion cancelled" and change nothing but the pending deletion; all five end the confirmation; other keys change nothing |
| App.ConfirmDelete | main.go:435-448 | y/Y with the pending position in range removes that entry, rebuilds the table and reports "Deleted" with its name; out of range it only ends the confirmation with no command; nothing but the entries, the table and the pending deletion changes |
| App.AddEntry | main.go:523-541 | The add key appends the placeholder entry, rebuilds the table and reports the addition; only the entries, the table, the cursor and the edit fields change, so a pending deletion, the layout and the status are kept |
| App.RequestDelete | main.go:542-553 | The delete key asks for confirmation of exactly the entry the cursor row resolves to, and does nothing on a header row |
| App.OpenSelected | main.go:554-562 | Space/enter asks to open an entry exactly when the cursor is on a record row, and the entry is the one that row resolves to |
| App.ScrollLeft | main.go:568-575 | Left at a positive offset lays the columns out again at exactly offset - 1 and rebuilds the table, changing nothing but the layout fields and the table; at offset 0 nothing changes |
| App.ScrollRight | main.go:576-587 | Right, while columns remain beyond the window, lays the columns out again at exactly offset + 1 and rebuilds the table, changing nothing but the layout fields and the table; otherwise nothing changes |
| App.UpdateNormal | main.go:516-596 | Dispatches q/ctrl+c, e (to the corrected `startEdit`), n/a, d/delete, space/enter, r, left and right to their handlers and every other key to the table; r replaces the entries with the reloaded ones, rebuilds the table and changes nothing else |
| App.Update | main.go:374-410 | A status message is stored; a resize stores the size, sets the columns, offset and table height to `AdjustLayout` at the new size and rebuilds the table, changing nothing else; keys go to edit mode, then delete confirmation, then normal mode; only d/delete in the list view arms a deletion and only y/Y/n/N/esc end one |
| Session.UpdatePreservesValid | main.go:374-596 | With the corrected `startEdit`, every message keeps the model invariant, so no message ever panics. The invariant: the table is the one built for the entries, the scroll window lies within the columns, and while editing, the edited row and field exist |
| Session.Run | main.go:374-410 | With the corrected `startEdit`, any sequence of messages from a valid model stays valid and never panics, and a laid-out model stays laid out |
| Session.UpdateKeepsArranged | main.go:374-596 | Every message keeps the columns laid out for the model's size and offset: a resize and a scroll lay them out again, and every other message leaves the layout fields alone |
| Session.InitShowsThreeColumns | main.go:65-125 | After the start layout three of the five columns are shown: Name, Project and Type widened to 49 |
| Session.ScrollLeftStep | main.go:568-575 | On a laid-out model, left at a positive offset moves the window exactly one column left and keeps its number of columns |
| Session.ScrollRightStep | main.go:576-587 | On a laid-out model, right with columns beyond the window moves it exactly one column right and keeps its number of columns |
| Session.ScrollRightThenLeft | main.go:568-587 | Right then left restores the shown columns, the offset and the rows |
| Session.InitCursorOnHeader | main.go:123-125 | At start, with a non-empty list, the cursor row 0 is a header that resolves to nothing |
| Session.TabAfterEditOnHeaderPanics | main.go:295-305 | As written, pressing "e" right after start leaves edit mode on with editRow -1 and editCol -1, and the next tab or shift+tab indexes configs[-1] |
| Session.EditOnHeaderIgnored | main.go:300-305 | With the corrected `startEdit`, "e" on the start header changes nothing |
| Session.TabThenShiftTabRestoresField | main.go:467-508 | Tab then shift+tab returns to the same field, which now holds what was typed, and the input shows it |
| Session.TabStep | main.go:467-487 | Tab saves the field, moves to the next one (4 wraps to 0) and shows its value; the entry's other fields and every other entry are kept, and nothing outside the entries, table, field number and input changes |
| Session.ShiftTabStep | main.go:488-508 | Shift+tab saves the field, moves to the previous one (0 wraps to 4), shows its value; the entry's other fields and every other entry are kept, and nothing outside the entries, table, field number and input changes |
| Session.CancelKeepsTabbedField | main.go:460-487 | esc after tab keeps what tab saved: cancelling does not undo a committed field |
| Session.EnterCanInvalidate | main.go:463-466 | Committing an empty Name stores an entry that fails the validity check: nothing enforces it |
| Session.EnterStoresField | main.go:463-466 | Enter stores what was typed (expanded for Path) into the edited field, keeps that entry's other fields and every other entry, closes the form and keeps the invariant |
| Session.EnterUntouchedKeepsEntries | main.go:329-348 | Enter on a field other than Path whose input still shows the stored value changes no entry |
| Session.SaveEditValidity | internal/models/config.go:68-70 | A valid entry stays valid after a field is committed exactly unless an empty value is stored into Name or Path |
| Session.NewEntryIsValid | internal/models/config.go:68-70 | The add key's placeholder has a non-empty Name and Path |
| Session.AddEditsFirstPlaceholder | main.go:523-541 | The add key opens the form on the first entry structurally equal to the placeholder, so an earlier, never renamed placeholder is edited instead of the new one |
| Session.DeleteRemovesSelected | main.go:542-553 | "d" on a record row followed by "y" removes exactly the entry that row resolves to and keeps the rest in order |
| Session.DeleteCancelledKeepsEntries | main.go:449-454 | "d" on a record row followed by "n" leaves the entries and the table as they were |

## Left out

- Disk I/O: `saveConfigs` is not modelled. `loadConfigs` (used at start and by "r") is the parameter `Env.loaded`. Atomic saving in the storage package is not part of this model.
- `expandPath` is the parameter `Env.expand`: the home directory comes from the environment.
- `openInEditor` and editor discovery become the command `OpenEditor(entry)`; launching a process is outside the model.
- The view mode (`updateView`, `viewMode`, `viewContent`) is not modelled: nothing in `Update` ever switches it on.
- Rendering (`View`, styles, the status line's timer and clearing) is not modelled; a status message is stored in `status`.
- Widget internals: the table's own handling of a key or other message arrives as `Env.cursorAfter`; the text input's editing arrives as `Env.inputAfter`. The table's clamping of the cursor when its rows change is not modelled: the cursor is left unchanged after delete, "r" and resize, so after deleting the last entry it can point past the rows. The add key moves it to the new entry's row, as `SetCursor` does. `Focus`, `Blur`, `SetCursor` and `CharLimit` are not modelled.
- Case handling is ASCII only. Go's `strings.ToLower` and `strings.EqualFold` also fold non-ASCII letters.
- `LastOpened` is an integer timestamp; `time.Time.After` becomes `>`.
- Sorting.Sort: Go's `sort.Slice` is not stable, so the order of entries with equal keys is not claimed to match. The model uses one fixed insertion sort everywhere, so `updateTable` and the resolvers see the same order, as the source relies on for a given list.
- `main.go` declares its own five-field entry type; the model uses the seven-field entry of `internal/models/config.go` throughout, and the add key's placeholder has LastOpened 0 and no tags.
- The header text in `main.go` shows the folder emoji as mis-decoded bytes; the model uses the character those bytes encode (U+1F4C2), and likewise for the emoji in the status messages.
- Window size at start: `Init` uses 100x24 as `main` does. The command `model.Init` returns, which sets the window title, is not modelled: `App.Init` returns only the model. The terminal's first `WindowSizeMsg` is an ordinary `Resize` message.
- App.UpdateNormal: the "e" key goes to the corrected `StartEdit`, not to `startEdit` as written (that is `StartEditAsWritten`, see Findings), so `Update`, `Run` and the invariant lemmas describe the program with that fix.
- Session.Run: never panicking holds only with the corrected `startEdit`; as written, "e" then tab on a header panics (`TabAfterEditOnHeaderPanics`).
- Layout.AdjustLayout: widths are unbounded integers; a terminal narrower than 6 columns gives column 0 a negative width, as the Go arithmetic does, and rendering such a width is not modelled.

## Findings

| source | as written | input that shows it | evidently intended | confidence | as-written member | corrected member |
|---|---|---|---|---|---|---|
| main.go:300-305 | `startEdit` sets `editMode = true` before checking whether the cursor row resolved to an entry. On a header row it returns with edit mode on and `editRow = -1`. A following tab or shift+tab saves nothing and then reads `m.configs[m.editRow]`, which is `configs[-1]`. Before that, the footer of the render that follows "e" already indexes `colNames[m.editCol]` with `editCol` still -1 (main.go:835-836), so the running program fails there first; rendering is not modelled | a non-empty list right after start (the cursor is on row 0, a project header), key "e", then key "tab" | check the resolved row first and leave the model unchanged on a header, as the early return's comment ("Invalid index") suggests | not executed | App.StartEditAsWritten (Session.TabAfterEditOnHeaderPanics) | App.StartEdit (Session.UpdatePreservesValid) |

=== FILE: app.dfy ===
/**
 * The list view's key handling as a state machine over an immutable model
 * value: editing one field of an entry, adding and deleting entries,
 * horizontal scrolling, and keeping the table rows and index map in step
 * with the entry list. Saving to disk is a no-op here; the widgets and the
 * outside world (the table's cursor, the text input's value, the home
 * directory, the registry file) reach the model through `Env`.
 */
module App {
  import opened Wrappers
  import opened Records
  import opened Layout
  import opened Table
  import opened Resolver

  datatype Model = Model(
    configs: seq<ConfigEntry>,
    allColumns: seq<Column>,   // every column, column 0 possibly narrowed
    columns: seq<Column>,      // the columns the table shows
    rows: seq<Row>,            // the table's rows
    configIndices: seq<int>,   // display row -> sorted position, -1 for a header
    cursor: int,               // the table's selected row
    width: int,
    height: int,
    tableHeight: int,
    scrollOffset: int,         // first shown column
    maxCols: int,
    editMode: bool,
    editRow: int,              // position in `configs` being edited
    editCol: int,              // field being edited: Name, Project, Type, Path, Description
    input: string,             // the text input's value
    confirmDelete: bool,
    deleteIndex: int,          // position in `configs` awaiting confirmation
    status: string)

  /**
   * What the collaborators supply for one message: `expand` resolves a
   * leading "~/" against the home directory, `loaded` is what reading the
   * registry file returns, `cursorAfter` the row the table selects after
   * handling a key it is given, and `inputAfter` the text input's value
   * after handling a key it is given.
   */
  datatype Env = Env(expand: string -> string, loaded: seq<ConfigEntry>, cursorAfter: int, inputAfter: string)

  datatype Msg =
    | Key(key: string)
    | Resize(width: int, height: int)
    | Status(message: string)
    | Other                     // mouse and other events the table handles

  datatype Cmd =
    | NoCmd
    | Quit
    | ShowStatus(message: string)
    | OpenEditor(entry: ConfigEntry)
    | Widget                    // whatever the table or text input asks for

  /** The outcome of handling a message; `Panic` is Go's index-out-of-range. */
  datatype Step = Next(m: Model, cmd: Cmd) | Panic

  /** The entry the add key appends. */
  const NewEntry: ConfigEntry :=
    ConfigEntry("New File", "~/path/to/file.json", "json", "", "File description", 0, [])

  /**
   * The shape every model the program builds has: a non-empty column
   * list, a non-negative scroll offset, at least one shown column and an
   * index map with nothing below -1. Outside it the code indexes out of range.
   */
  predicate Wired(m: Model) {
    |m.allColumns| > 0 && m.scrollOffset >= 0 && |m.columns| > 0 && WellFormed(m.configIndices)
  }

  /** The table's rows and index map are the ones `updateTable` builds for the entries. */
  predicate Shown(m: Model) {
    && |m.columns| > 0
    && var t := UpdateTable(m.configs, m.columns);
       m.rows == t.rows && m.configIndices == t.indices
  }

  /**
   * The column list, the shown columns, the offset and the table height are
   * what `adjustLayout` makes of the model's own columns, size and offset.
   */
  predicate LaidOut(m: Model)
    requires |m.allColumns| > 0 && m.scrollOffset >= 0
  {
    var l := AdjustLayout(m.allColumns, m.width, m.height, m.scrollOffset);
    && l.allColumns == m.allColumns && l.visible == m.columns
    && l.scrollOffset == m.scrollOffset && l.tableHeight == m.tableHeight
  }

  /**
   * The layout invariant every message keeps: only column 0 may have been
   * narrowed, and the columns are laid out for the current size and offset.
   */
  predicate Arranged(m: Model) {
    |m.allColumns| > 0 && m.scrollOffset >= 0 && TailWidthsPositive(m.allColumns) && LaidOut(m)
  }

  /** The fields `adjustLayout` reads or writes are the same in both models. */
  predicate SameLayout(a: Model, b: Model) {
    && a.allColumns == b.allColumns && a.columns == b.columns && a.scrollOffset == b.scrollOffset
    && a.width == b.width && a.height == b.height && a.tableHeight == b.tableHeight
  }

  /**
   * The invariant the key handlers keep: the model is wired, the scroll
   * window lies within the columns, the table shows the entries, and
   * while editing, the edited row and field exist.
   */
  predicate Valid(m: Model) {
    && Wired(m)
    && m.scrollOffset + |m.columns| <= |m.allColumns|
    && m.maxCols == |m.allColumns|
    && Shown(m)
    && (m.editMode ==> 0 <= m.editRow < |m.configs| && 0 <= m.editCol < 5)
  }

  /** Go's integer `/`: the quotient is truncated toward zero. */
  function GoQuo(a: int, b: int): (q: int)
    requires b > 0
    ensures a >= 0 ==> q >= 0
    ensures a < 0 ==> q <= 0
  {
    if a >= 0 then a / b else -((-a) / b)
  }

  /** Go's `%`: the remainder takes the sign of the dividend. */
  function GoRem(a: int, b: int): (r: int)
    requires b > 0
    ensures a >= 0 ==> 0 <= r < b
    ensures a < 0 ==> -b < r <= 0
    ensures a >= 0 ==> r == a % b
    ensures a == GoQuo(a, b) * b + r
  {
    if a >= 0 then a % b else -((-a) % b)
  }

  /* ---------------------------------------------------------------------- */
  /* Layout and table refresh                                                */
  /* ---------------------------------------------------------------------- */

  /** `updateTable` on the model: only the rows and the index map change. */
  function RefreshTable(m: Model): (m': Model)
    requires |m.columns| > 0
    ensures Shown(m')
    ensures m'.(rows := m.rows, configIndices := m.configIndices) == m
    ensures WellFormed(m'.configIndices)
  {
    var t := UpdateTable(m.configs, m.columns);
    m.(rows := t.rows, configIndices := t.indices)
  }

  /** `adjustLayout` on the model: only the column fields, offset, height and maxCols change. */
  function ApplyLayout(m: Model): (m': Model)
    requires |m.allColumns| > 0 && m.scrollOffset >= 0
    ensures |m'.allColumns| == |m.allColumns| && m'.maxCols == |m'.allColumns|
    ensures 1 <= |m'.columns| && 0 <= m'.scrollOffset && m'.scrollOffset + |m'.columns| <= |m'.allColumns|
    ensures m.scrollOffset + |m'.columns| <= |m.allColumns| ==> m'.scrollOffset == m.scrollOffset
    ensures m'.(allColumns := m.allColumns, columns := m.columns, scrollOffset := m.scrollOffset,
                tableHeight := m.tableHeight, maxCols := m.maxCols) == m
    ensures var l := AdjustLayout(m.allColumns, m.width, m.height, m.scrollOffset);
      && m'.allColumns == l.allColumns && m'.columns == l.visible
      && m'.scrollOffset == l.scrollOffset && m'.tableHeight == l.tableHeight
    ensures TailWidthsPositive(m.allColumns) ==> TailWidthsPositive(m'.allColumns) && LaidOut(m')
  {
    var l := AdjustLayout(m.allColumns, m.width, m.height, m.scrollOffset);
    AdjustLayoutIdempotent(m.allColumns, m.width, m.height, m.scrollOffset);
    m.(allColumns := l.allColumns, columns := l.visible, scrollOffset := l.scrollOffset,
       tableHeight := l.tableHeight, maxCols := |l.allColumns|)
  }

  /**
   * `adjustLayout` then `updateTable` with the scroll offset set to
   * `offset`: the columns and offset are the layout of the model's own
   * columns and size, and the table shows the entries in them.
   */
  function Relayout(m: Model, offset: int): (m': Model)
    requires |m.allColumns| > 0 && offset >= 0
    ensures var l := AdjustLayout(m.allColumns, m.width, m.height, offset);
      && m'.allColumns == l.allColumns && m'.columns == l.visible
      && m'.scrollOffset == l.scrollOffset && m'.tableHeight == l.tableHeight
    ensures Wired(m') && Shown(m') && m'.maxCols == |m'.allColumns|
    ensures m'.scrollOffset + |m'.columns| <= |m'.allColumns|
    ensures m'.configs == m.configs && m'.width == m.width && m'.height == m.height
    ensures m'.(allColumns := m.allColumns, columns := m.columns, scrollOffset := m.scrollOffset,
                tableHeight := m.tableHeight, maxCols := m.maxCols,
                rows := m.rows, configIndices := m.configIndices) == m
    ensures TailWidthsPositive(m.allColumns) ==> TailWidthsPositive(m'.allColumns) && LaidOut(m')
  {
    RefreshTable(ApplyLayout(m.(scrollOffset := offset)))
  }

  /**
   * The model `main` starts the program with: 100x24, the first four
   * columns, nothing being edited or deleted, then laid out and filled.
   */
  function Init(configs: seq<ConfigEntry>): (m: Model)
    ensures m.configs == configs && m.cursor == 0
    ensures !m.editMode && !m.confirmDelete && m.editRow == -1 && m.deleteIndex == -1
    ensures |m.allColumns| == 5 && m.scrollOffset == 0
    ensures Valid(m) && Arranged(m)
  {
    var m0 := Model(configs, DefaultColumns, DefaultColumns[..4], [], [], 0, 100, 24, 10, 0, 5,
                    false, -1, -1, "", false, -1, "");
    assert TailWidthsPositive(DefaultColumns);
    Relayout(m0, 0)
  }

  /* ---------------------------------------------------------------------- */
  /* Editing                                                                 */
  /* ---------------------------------------------------------------------- */

  /**
   * `startEdit` as the code has it: edit mode is switched on before the
   * resolver's answer is checked, so on a header row the model is left in
   * edit mode with editRow == -1.
   */
  function StartEditAsWritten(m: Model): (m': Model)
    requires WellFormed(m.configIndices)
    ensures |m.configs| == 0 ==> m' == m
    ensures |m.configs| > 0 ==> m'.editMode
    ensures |m.configs| > 0 ==> m'.editRow == OriginalIndex(m.configs, m.configIndices, m.cursor)
    ensures m'.configs == m.configs && m'.configIndices == m.configIndices
  {
    if |m.configs| == 0 then m
    else
      var r := OriginalIndex(m.configs, m.configIndices, m.cursor);
      if r == -1 then m.(editMode := true, editRow := -1)
      else m.(editMode := true, editRow := r, editCol := 0, input := Field(m.configs[r], 0))
  }

  /**
   * `startEdit` as its early return intends: on a record row, edit the
   * Name field of the entry the row resolves to; anywhere else (no
   * entries, a header row, out of range) change nothing.
   */
  function StartEdit(m: Model): (m': Model)
    requires WellFormed(m.configIndices)
    ensures var r := OriginalIndex(m.configs, m.configIndices, m.cursor);
      if r == -1 then m' == m
      else m' == m.(editMode := true, editRow := r, editCol := 0, input := m.configs[r].name)
  {
    if |m.configs| == 0 then m
    else
      var r := OriginalIndex(m.configs, m.configIndices, m.cursor);
      if r == -1 then m
      else m.(editMode := true, editRow := r, editCol := 0, input := Field(m.configs[r], 0))
  }

  /** What `saveEdit` stores: the typed value, with "~/" expanded for the Path field. */
  function Stored(m: Model, env: Env): string {
    if m.editCol == 3 then env.expand(m.input) else m.input
  }

  /**
   * `saveEdit`: when editing an existing row, store the input into field
   * `editCol` of that entry (nothing for another column number) and refresh
   * the table; otherwise change nothing.
   */
  function SaveEdit(m: Model, env: Env): (m': Model)
    requires |m.columns| > 0
    ensures |m'.configs| == |m.configs|
    ensures !(m.editMode && 0 <= m.editRow < |m.configs|) ==> m' == m
    ensures m.editMode && 0 <= m.editRow < |m.configs| ==>
      && Shown(m')
      && (forall j :: 0 <= j < |m.configs| && j != m.editRow ==> m'.configs[j] == m.configs[j])
      && (0 <= m.editCol < 5 ==> Field(m'.configs[m.editRow], m.editCol) == Stored(m, env))
      && (forall k :: k != m.editCol ==> Field(m'.configs[m.editRow], k) == Field(m.configs[m.editRow], k))
      && m'.configs[m.editRow].lastOpened == m.configs[m.editRow].lastOpened
      && m'.configs[m.editRow].tags == m.configs[m.editRow].tags
    ensures m'.(configs := m.configs, rows := m.rows, configIndices := m.configIndices) == m
  {
    if !m.editMode || m.editRow < 0 || m.editRow >= |m.configs| then m
    else
      var c := WithField(m.configs[m.editRow], m.editCol, Stored(m, env));
      RefreshTable(m.(configs := m.configs[m.editRow := c]))
  }

  /** `cancelEdit`: leave edit mode and clear the input; the entries are untouched. */
  function CancelEdit(m: Model): (m': Model)
    ensures !m'.editMode && m'.editRow == -1 && m'.editCol == -1 && m'.input == ""
    ensures m'.(editMode := m.editMode, editRow := m.editRow, editCol := m.editCol, input := m.input) == m
  {
    m.(editMode := false, editRow := -1, editCol := -1, input := "")
  }

  /** Moves the edit form to field `col` of the edited entry, showing its value; Go panics on a bad row. */
  function MoveTo(m: Model, col: int): (s: Step)
    ensures s.Panic? <==> !(0 <= m.editRow < |m.configs|)
    ensures s.Next? ==> s.cmd == NoCmd && s.m.editCol == col && s.m.input == Field(m.configs[m.editRow], col)
    ensures s.Next? ==> s.m.(editCol := m.editCol, input := m.input) == m
  {
    if 0 <= m.editRow < |m.configs| then Next(m.(editCol := col, input := Field(m.configs[m.editRow], col)), NoCmd)
    else Panic
  }

  /**
   * Enter in the edit form: save the field, leave edit mode and report the
   * update. Only the entries, the table and the edit fields change.
   */
  function Commit(m: Model, env: Env): (s: Step)
    requires |m.columns| > 0
    ensures s.Next? && s.cmd == ShowStatus("\U{2705} File updated") && !s.m.editMode
    ensures s.m.editRow == -1 && s.m.editCol == -1 && s.m.input == ""
    ensures s.m.configs == SaveEdit(m, env).configs
    ensures s.m.(configs := m.configs, rows := m.rows, configIndices := m.configIndices,
                 editMode := m.editMode, editRow := m.editRow, editCol := m.editCol, input := m.input) == m
  {
    Next(CancelEdit(SaveEdit(m, env)), ShowStatus("\U{2705} File updated"))
  }

  /**
   * Tab or shift+tab in the edit form: save the field, then show field
   * `col` of the same entry. Only the entries, the table, the field number
   * and the input change; Go panics when the edited row is out of range.
   */
  function SaveAndMove(m: Model, env: Env, col: int): (s: Step)
    requires |m.columns| > 0
    ensures s.Panic? <==> !(0 <= m.editRow < |m.configs|)
    ensures s.Next? ==> && s.cmd == NoCmd && s.m.editCol == col
                        && s.m.configs == SaveEdit(m, env).configs
                        && s.m.input == Field(s.m.configs[m.editRow], col)
    ensures s.Next? ==> s.m.(configs := m.configs, rows := m.rows, configIndices := m.configIndices,
                             editCol := m.editCol, input := m.input) == m
  {
    MoveTo(SaveEdit(m, env), col)
  }

  /**
   * `updateEdit`: esc cancels; enter saves and leaves edit mode; tab and
   * shift+tab save, then move one field right or left, wrapping; any other
   * key goes to the text input.
   */
  function UpdateEdit(m: Model, key: string, env: Env): (s: Step)
    requires |m.columns| > 0
    ensures key == "esc" ==> s == Next(CancelEdit(m), NoCmd)
    ensures key == "enter" ==> s.Next? && s.cmd == ShowStatus("\U{2705} File updated") && !s.m.editMode
    ensures key == "enter" ==> s.m.configs == SaveEdit(m, env).configs
    ensures key == "enter" ==> s == Commit(m, env)
    ensures key == "tab" && s.Next? ==> s.m.editCol == GoRem(m.editCol + 1, 5)
    ensures key == "shift+tab" && s.Next? ==> s.m.editCol == GoRem(m.editCol + 4, 5)
    ensures key == "tab" ==> s == SaveAndMove(m, env, GoRem(m.editCol + 1, 5))
    ensures key == "shift+tab" ==> s == SaveAndMove(m, env, GoRem(m.editCol + 4, 5))
    ensures key in {"tab", "shift+tab"} && s.Next? ==>
      && s.m.configs == SaveEdit(m, env).configs
      && s.m.(configs := m.configs, rows := m.rows, configIndices := m.configIndices,
              editCol := m.editCol, input := m.input) == m
    ensures key !in {"esc", "enter", "tab", "shift+tab"} ==> s == Next(m.(input := env.inputAfter), Widget)
    ensures s.Panic? ==> key in {"tab", "shift+tab"} && !(0 <= m.editRow < |m.configs|)
  {
    match key
    case "esc" => Next(CancelEdit(m), NoCmd)
    case "enter" => Commit(m, env)
    case "tab" => SaveAndMove(m, env, GoRem(m.editCol + 1, 5))
    case "shift+tab" => SaveAndMove(m, env, GoRem(m.editCol - 1 + 5, 5))
    case _ => Next(m.(input := env.inputAfter), Widget)
  }

  /* ---------------------------------------------------------------------- */
  /* Deleting                                                                */
  /* ---------------------------------------------------------------------- */

  /** Removes position i, keeping the others in order. */
  function Remove(s: seq<ConfigEntry>, i: int): (r: seq<ConfigEntry>)
    requires 0 <= i < |s|
    ensures |r| == |s| - 1
    ensures forall j :: 0 <= j < i ==> r[j] == s[j]
    ensures forall j :: i <= j < |r| ==> r[j] == s[j + 1]
    ensures multiset(r) + multiset{s[i]} == multiset(s)
  {
    assert s == s[..i] + [s[i]] + s[i + 1..];
    s[..i] + s[i + 1..]
  }

  /**
   * `updateDeleteConfirm`: y or Y removes the pending entry when its
   * position is in range and reports it; n, N and esc cancel; every one of
   * these ends the confirmation. Any other key changes nothing.
   */
  function UpdateDeleteConfirm(m: Model, key: string): (s: Step)
    requires |m.columns| > 0
    ensures s.Next?
    ensures key in {"y", "Y", "n", "N", "esc"} ==> !s.m.confirmDelete && s.m.deleteIndex == -1
    ensures key !in {"y", "Y", "n", "N", "esc"} ==> s == Next(m, NoCmd)
    ensures key in {"y", "Y"} && 0 <= m.deleteIndex < |m.configs| ==>
      s.m.configs == Remove(m.configs, m.deleteIndex) && Shown(s.m) &&
      s.cmd == ShowStatus("\U{1F5D1}\U{FE0F} Deleted " + m.configs[m.deleteIndex].name)
    ensures !(key in {"y", "Y"} && 0 <= m.deleteIndex < |m.configs|) ==> s.m.configs == m.configs && s.m.rows == m.rows
    ensures key in {"y", "Y"} ==> s == ConfirmDelete(m)
    ensures key in {"n", "N", "esc"} ==>
      && s.cmd == ShowStatus("\U{274C} Deletion cancelled")
      && s.m.(confirmDelete := m.confirmDelete, deleteIndex := m.deleteIndex) == m
  {
    match key
    case "y" => ConfirmDelete(m)
    case "Y" => ConfirmDelete(m)
    case "n" => Next(m.(confirmDelete := false, deleteIndex := -1), ShowStatus("\U{274C} Deletion cancelled"))
    case "N" => Next(m.(confirmDelete := false, deleteIndex := -1), ShowStatus("\U{274C} Deletion cancelled"))
    case "esc" => Next(m.(confirmDelete := false, deleteIndex := -1), ShowStatus("\U{274C} Deletion cancelled"))
    case _ => Next(m, NoCmd)
  }

  /** y or Y: remove the pending entry when its position is in range, and end the confirmation. */
  function ConfirmDelete(m: Model): (s: Step)
    requires |m.columns| > 0
    ensures s.Next? && !s.m.confirmDelete && s.m.deleteIndex == -1
    ensures 0 <= m.deleteIndex < |m.configs| ==>
      s.m.configs == Remove(m.configs, m.deleteIndex) && Shown(s.m) &&
      s.cmd == ShowStatus("\U{1F5D1}\U{FE0F} Deleted " + m.configs[m.deleteIndex].name)
    ensures !(0 <= m.deleteIndex < |m.configs|) ==> s == Next(m.(confirmDelete := false, deleteIndex := -1), NoCmd)
    ensures s.m.(configs := m.configs, rows := m.rows, configIndices := m.configIndices,
                 confirmDelete := m.confirmDelete, deleteIndex := m.deleteIndex) == m
  {
    if 0 <= m.deleteIndex < |m.configs| then
      var name := m.configs[m.deleteIndex].name;
      var m1 := RefreshTable(m.(configs := Remove(m.configs, m.deleteIndex)));
      Next(m1.(confirmDelete := false, deleteIndex := -1), ShowStatus("\U{1F5D1}\U{FE0F} Deleted " + name))
    else
      Next(m.(confirmDelete := false, deleteIndex := -1), NoCmd)
  }

  /* ---------------------------------------------------------------------- */
  /* Normal mode                                                             */
  /* ---------------------------------------------------------------------- */

  /** The add key: append the placeholder, refresh, and start editing the first row showing it. */
  function AddEntry(m: Model): (s: Step)
    requires |m.columns| > 0
    ensures s.Next? && s.cmd == ShowStatus("\U{2795} New file added")
    ensures s.m.configs == m.configs + [NewEntry] && Shown(s.m)
    ensures s.m.(configs := m.configs, rows := m.rows, configIndices := m.configIndices, cursor := m.cursor,
                 editMode := m.editMode, editRow := m.editRow, editCol := m.editCol, input := m.input) == m
  {
    var m1 := RefreshTable(m.(configs := m.configs + [NewEntry]));
    var d := FindDisplayIndex(m1.configs, m1.configIndices, NewEntry);
    var m2 := if d != -1 then StartEdit(m1.(cursor := d)) else m1;
    Next(m2, ShowStatus("\U{2795} New file added"))
  }

  /** The delete key: ask for confirmation of the entry under the cursor. */
  function RequestDelete(m: Model): (s: Step)
    requires WellFormed(m.configIndices)
    ensures s.Next?
    ensures var i := OriginalIndex(m.configs, m.configIndices, m.cursor);
      if i == -1 then s == Next(m, NoCmd)
      else s.m == m.(confirmDelete := true, deleteIndex := i) &&
           s.cmd == ShowStatus("\U{2753} Delete '" + m.configs[i].name + "'? (y/n)")
  {
    if |m.configs| > 0 then
      var i := OriginalIndex(m.configs, m.configIndices, m.cursor);
      if i == -1 then Next(m, NoCmd)
      else Next(m.(confirmDelete := true, deleteIndex := i),
                ShowStatus("\U{2753} Delete '" + m.configs[i].name + "'? (y/n)"))
    else Next(m, NoCmd)
  }

  /** Space or enter: open the entry under the cursor in an editor. */
  function OpenSelected(m: Model): (s: Step)
    requires WellFormed(m.configIndices)
    ensures s.Next? && s.m == m
    ensures s.cmd.OpenEditor? <==> IsRecordRow(m.configs, m.configIndices, m.cursor)
    ensures s.cmd.OpenEditor? ==> s.cmd.entry == m.configs[OriginalIndex(m.configs, m.configIndices, m.cursor)]
    ensures !s.cmd.OpenEditor? ==> s.cmd == NoCmd
  {
    ConfigAtIsOriginalIndex(m.configs, m.configIndices, m.cursor);
    if |m.configs| > 0 then
      match ConfigAt(m.configs, m.configIndices, m.cursor)
      case Some(c) => Next(m, OpenEditor(c))
      case None => Next(m, NoCmd)
    else Next(m, NoCmd)
  }

  /** Left: scroll one column left when not already at the first. */
  function ScrollLeft(m: Model): (s: Step)
    requires Wired(m)
    ensures s.Next? && s.cmd == NoCmd
    ensures m.scrollOffset == 0 ==> s.m == m
    ensures m.scrollOffset > 0 ==>
      (s.m.configs == m.configs && Shown(s.m) && 0 <= s.m.scrollOffset <= m.scrollOffset - 1)
    ensures m.scrollOffset > 0 ==>
      var l := AdjustLayout(m.allColumns, m.width, m.height, m.scrollOffset - 1);
      s.m.allColumns == l.allColumns && s.m.columns == l.visible && s.m.scrollOffset == l.scrollOffset
    ensures s.m.(allColumns := m.allColumns, columns := m.columns, scrollOffset := m.scrollOffset,
                 tableHeight := m.tableHeight, maxCols := m.maxCols,
                 rows := m.rows, configIndices := m.configIndices) == m
  {
    if m.scrollOffset > 0 then Next(Relayout(m, m.scrollOffset - 1), NoCmd)
    else Next(m, NoCmd)
  }

  /** Right: scroll one column right while columns remain beyond the shown ones. */
  function ScrollRight(m: Model): (s: Step)
    requires Wired(m)
    ensures s.Next? && s.cmd == NoCmd
    ensures m.scrollOffset >= m.maxCols - |m.columns| ==> s.m == m
    ensures m.scrollOffset < m.maxCols - |m.columns| ==>
      (s.m.configs == m.configs && Shown(s.m) &&
       s.m.scrollOffset <= m.scrollOffset + 1 && s.m.scrollOffset + |s.m.columns| <= |s.m.allColumns|)
    ensures m.scrollOffset < m.maxCols - |m.columns| ==>
      var l := AdjustLayout(m.allColumns, m.width, m.height, m.scrollOffset + 1);
      s.m.allColumns == l.allColumns && s.m.columns == l.visible && s.m.scrollOffset == l.scrollOffset
    ensures s.m.(allColumns := m.allColumns, columns := m.columns, scrollOffset := m.scrollOffset,
                 tableHeight := m.tableHeight, maxCols := m.maxCols,
                 rows := m.rows, configIndices := m.configIndices) == m
  {
    var maxOffset := if m.maxCols - |m.columns| < 0 then 0 else m.maxCols - |m.columns|;
    if m.scrollOffset < maxOffset then Next(Relayout(m, m.scrollOffset + 1), NoCmd)
    else Next(m, NoCmd)
  }

  /** `updateNormal`: the keys of the list view outside edit mode and delete confirmation. */
  function UpdateNormal(m: Model, key: string, env: Env): (s: Step)
    requires Wired(m)
    ensures s.Next?
    ensures key in {"q", "ctrl+c"} ==> s == Next(m, Quit)
    ensures key == "e" ==> s == Next(StartEdit(m), NoCmd)
    ensures key in {"n", "a"} ==> s == AddEntry(m)
    ensures key in {"d", "delete"} ==> s == RequestDelete(m)
    ensures key in {" ", "enter"} ==> s == OpenSelected(m)
    ensures key == "r" ==> s.m.configs == env.loaded && Shown(s.m) && s.cmd == ShowStatus("\U{1F504} Refreshed")
    ensures key == "r" ==> s.m.(configs := m.configs, rows := m.rows, configIndices := m.configIndices) == m
    ensures key == "left" ==> s == ScrollLeft(m)
    ensures key == "right" ==> s == ScrollRight(m)
    ensures key !in {"q", "ctrl+c", "e", "n", "a", "d", "delete", " ", "enter", "r", "left", "right"} ==>
      s == Next(m.(cursor := env.cursorAfter), Widget)
  {
    match key
    case "q" => Next(m, Quit)
    case "ctrl+c" => Next(m, Quit)
    case "e" => Next(StartEdit(m), NoCmd)
    case "n" => AddEntry(m)
    case "a" => AddEntry(m)
    case "d" => RequestDelete(m)
    case "delete" => RequestDelete(m)
    case " " => OpenSelected(m)
    case "enter" => OpenSelected(m)
    case "r" => Next(RefreshTable(m.(configs := env.loaded)), ShowStatus("\U{1F504} Refreshed"))
    case "left" => ScrollLeft(m)
    case "right" => ScrollRight(m)
    case _ => Next(m.(cursor := env.cursorAfter), Widget)
  }

  /**
   * `Update`: a status message is shown; a resize re-lays out and refreshes;
   * a key goes to edit mode, then delete confirmation, then normal mode;
   * anything else goes to the table unless editing. Only the delete key
   * in the list view arms a deletion, and only the confirmation keys end one.
   */
  function Update(m: Model, msg: Msg, env: Env): (s: Step)
    requires Wired(m)
    ensures msg.Status? ==> s == Next(m.(status := msg.message), NoCmd)
    ensures msg.Resize? ==>
      (s.Next? && s.cmd == NoCmd && s.m.configs == m.configs && Shown(s.m) &&
       s.m.width == msg.width && s.m.height == msg.height)
    ensures msg.Resize? ==>
      var l := AdjustLayout(m.allColumns, msg.width, msg.height, m.scrollOffset);
      && s.m.allColumns == l.allColumns && s.m.columns == l.visible
      && s.m.scrollOffset == l.scrollOffset && s.m.tableHeight == l.tableHeight
    ensures msg.Resize? ==>
      s.m.(allColumns := m.allColumns, columns := m.columns, scrollOffset := m.scrollOffset,
           tableHeight := m.tableHeight, maxCols := m.maxCols, rows := m.rows,
           configIndices := m.configIndices, width := m.width, height := m.height) == m
    ensures msg.Key? && m.editMode ==> s == UpdateEdit(m, msg.key, env)
    ensures msg.Key? && !m.editMode && m.confirmDelete ==> s == UpdateDeleteConfirm(m, msg.key)
    ensures msg.Key? && !m.editMode && !m.confirmDelete ==> s == UpdateNormal(m, msg.key, env)
    ensures s.Next? && !m.confirmDelete && s.m.confirmDelete ==>
      msg.Key? && !m.editMode && msg.key in {"d", "delete"}
    ensures s.Next? && m.confirmDelete && !s.m.confirmDelete ==>
      msg.Key? && !m.editMode && msg.key in {"y", "Y", "n", "N", "esc"}
    ensures msg.Other? ==> s == if m.editMode then Next(m, NoCmd) else Next(m.(cursor := env.cursorAfter), Widget)
  {
    match msg
    case Status(text) => Next(m.(status := text), NoCmd)
    case Resize(w, h) => Next(Relayout(m.(width := w, height := h), m.scrollOffset), NoCmd)
    case Key(key) =>
      if m.editMode then UpdateEdit(m, key, env)
      else if m.confirmDelete then UpdateDeleteConfirm(m, key)
      else UpdateNormal(m, key, env)
    case Other => if m.editMode then Next(m, NoCmd) else Next(m.(cursor := env.cursorAfter), Widget)
  }
}

=== FILE: layout.dfy ===
/**
 * The column layout of the list view: which of the five fixed-width
 * columns fit the terminal, the horizontal scroll window over them, and
 * the leftover width handed to the last visible column.
 */
module Layout {

  datatype Column = Column(title: string, width: int)

  const ColumnTitles: seq<string> := ["Name", "Project", "Type", "Path", "Description"]

  /** The columns the program starts with. */
  const DefaultColumns: seq<Column> :=
    [Column("Name", 25), Column("Project", 20), Column("Type", 10),
     Column("Path", 40), Column("Description", 30)]

  /** Border allowance subtracted from the terminal width. */
  const BorderWidth := 6

  /** `getColumnIndex`: the field a column title shows, -1 for an unknown title. */
  function GetColumnIndex(title: string): (k: int)
    ensures -1 <= k < |ColumnTitles|
    ensures k == -1 <==> title !in ColumnTitles
    ensures k != -1 ==> ColumnTitles[k] == title
  {
    match title
    case "Name" => 0
    case "Project" => 1
    case "Type" => 2
    case "Path" => 3
    case "Description" => 4
    case _ => -1
  }

  /** Every known title maps back to its own position. */
  lemma ColumnIndexOfTitle(k: int)
    requires 0 <= k < |ColumnTitles|
    ensures GetColumnIndex(ColumnTitles[k]) == k
  {
  }

  function TotalWidth(cs: seq<Column>): int {
    if |cs| == 0 then 0 else cs[0].width + TotalWidth(cs[1..])
  }

  lemma {:induction false} TotalWidthAppend(a: seq<Column>, b: seq<Column>)
    ensures TotalWidth(a + b) == TotalWidth(a) + TotalWidth(b)
    decreases |a|
  {
    if |a| == 0 {
      assert a + b == b;
    } else {
      assert (a + b)[1..] == a[1..] + b;
      TotalWidthAppend(a[1..], b);
    }
  }

  /** Widening the last column widens the total by the same amount. */
  lemma WidenLast(cs: seq<Column>, extra: int)
    requires |cs| > 0
    ensures TotalWidth(cs[|cs| - 1 := cs[|cs| - 1].(width := cs[|cs| - 1].width + extra)]) == TotalWidth(cs) + extra
  {
    var n := |cs| - 1;
    var c := cs[n].(width := cs[n].width + extra);
    assert cs == cs[..n] + [cs[n]];
    assert cs[n := c] == cs[..n] + [c];
    TotalWidthAppend(cs[..n], [cs[n]]);
    TotalWidthAppend(cs[..n], [c]);
  }

  lemma PrefixWidths(cs: seq<Column>)
    requires |cs| > 0
    ensures forall k :: 0 < k <= |cs| ==> TotalWidth(cs[..k]) == cs[0].width + TotalWidth(cs[1..][..k - 1])
  {
    forall k | 0 < k <= |cs|
      ensures TotalWidth(cs[..k]) == cs[0].width + TotalWidth(cs[1..][..k - 1])
    {
      assert cs[..k][1..] == cs[1..][..k - 1];
    }
  }

  /**
   * The greedy count: how many leading columns are taken before the first
   * one whose width would push the running total past `budget`.
   */
  function Fit(cs: seq<Column>, budget: int): (n: nat)
    ensures n <= |cs|
    ensures forall k :: 0 < k <= n ==> TotalWidth(cs[..k]) <= budget
    ensures n < |cs| ==> TotalWidth(cs[..n + 1]) > budget
    decreases |cs|
  {
    if |cs| == 0 then 0
    else if cs[0].width <= budget then
      PrefixWidths(cs);
      1 + Fit(cs[1..], budget - cs[0].width)
    else
      assert TotalWidth(cs[..1]) == cs[0].width;
      0
  }

  datatype LayoutResult = LayoutResult(
    allColumns: seq<Column>,  // the full column list, possibly with column 0 narrowed
    visible: seq<Column>,     // the columns handed to the table
    scrollOffset: int,        // the clamped horizontal scroll offset
    tableHeight: int)

  function Max(a: int, b: int): int { if a < b then b else a }

  /**
   * The scroll clamp: a window of `n` columns starting at `offset` is
   * pulled back so that it ends at the last column when it would run past it.
   */
  function ClampOffset(offset: int, n: int, count: int): (start: int)
    requires 0 <= offset && 1 <= n <= count
    ensures 0 <= start && start + n <= count
    ensures start == offset || start + n == count
    ensures offset + n <= count ==> start == offset
  {
    if offset + n > count then count - n else offset
  }

  /** Gives the width left over in `available` to the last column of `window`. */
  function FillWidth(window: seq<Column>, available: int): (v: seq<Column>)
    requires |window| > 0
    ensures |v| == |window|
    ensures v[..|v| - 1] == window[..|window| - 1]
    ensures v[|v| - 1].title == window[|window| - 1].title
    ensures v[|v| - 1].width >= window[|window| - 1].width
    ensures TotalWidth(v) == Max(available, TotalWidth(window))
  {
    var n := |window|;
    var used := TotalWidth(window);
    if available - used > 0 then
      WidenLast(window, available - used);
      window[n - 1 := window[n - 1].(width := window[n - 1].width + (available - used))]
    else window
  }

  /** The `n` columns from `start` on, the last one widened to fill `available`. */
  function ShowWindow(cols: seq<Column>, start: int, n: int, available: int): (v: seq<Column>)
    requires 0 <= start && 1 <= n && start + n <= |cols|
    ensures |v| == n
    ensures v[..|v| - 1] == cols[start..start + |v| - 1]
    ensures v[|v| - 1].title == cols[start + |v| - 1].title
    ensures v[|v| - 1].width >= cols[start + |v| - 1].width
    ensures TotalWidth(v) == Max(available, TotalWidth(cols[start..start + |v|]))
  {
    var window := cols[start..start + n];
    assert window[..n - 1] == cols[start..start + n - 1];
    assert window[n - 1] == cols[start + n - 1];
    FillWidth(window, available)
  }

  /**
   * `adjustLayout`: fit columns greedily into `width - 6`, force one column
   * when none fits (permanently narrowing column 0), clamp the scroll window
   * to the column list, and give any leftover width to the last visible column.
   */
  function AdjustLayout(allColumns: seq<Column>, width: int, height: int, scrollOffset: int): (l: LayoutResult)
    requires |allColumns| > 0
    requires scrollOffset >= 0
    // which columns, and where the window sits
    ensures |l.allColumns| == |allColumns|
    ensures forall k :: 0 <= k < |allColumns| ==> l.allColumns[k].title == allColumns[k].title
    ensures |l.visible| == (if Fit(allColumns, width - BorderWidth) == 0 then 1 else Fit(allColumns, width - BorderWidth))
    ensures 1 <= |l.visible| <= |allColumns|
    ensures 0 <= l.scrollOffset && l.scrollOffset + |l.visible| <= |allColumns|
    ensures l.scrollOffset == scrollOffset || l.scrollOffset + |l.visible| == |allColumns|
    ensures scrollOffset + |l.visible| <= |allColumns| ==> l.scrollOffset == scrollOffset
    // when nothing fits, column 0 is narrowed to the available width for good
    ensures Fit(allColumns, width - BorderWidth) > 0 ==> l.allColumns == allColumns
    ensures Fit(allColumns, width - BorderWidth) == 0 ==>
      l.allColumns == allColumns[0 := allColumns[0].(width := width - BorderWidth)]
    // widths: only the last visible column grows, up to the available width
    ensures l.visible[..|l.visible| - 1] == l.allColumns[l.scrollOffset..l.scrollOffset + |l.visible| - 1]
    ensures l.visible[|l.visible| - 1].title == l.allColumns[l.scrollOffset + |l.visible| - 1].title
    ensures l.visible[|l.visible| - 1].width >= l.allColumns[l.scrollOffset + |l.visible| - 1].width
    ensures TotalWidth(l.visible) ==
      Max(width - BorderWidth, TotalWidth(l.allColumns[l.scrollOffset..l.scrollOffset + |l.visible|]))
    ensures l.tableHeight == Max(height - 6, 5)
  {
    var available := width - BorderWidth;
    var fit := Fit(allColumns, available);
    var cols := if fit == 0 then allColumns[0 := allColumns[0].(width := available)] else allColumns;
    var n := if fit == 0 then 1 else fit;
    Place(cols, n, scrollOffset, available, Max(height - 6, 5))
  }

  /** Clamps the window of `n` columns at `scrollOffset` and fills it to `available`. */
  function Place(cols: seq<Column>, n: int, scrollOffset: int, available: int, tableHeight: int): (l: LayoutResult)
    requires 1 <= n <= |cols| && scrollOffset >= 0
    ensures l.allColumns == cols && |l.visible| == n && l.tableHeight == tableHeight
    ensures 0 <= l.scrollOffset && l.scrollOffset + n <= |cols|
    ensures l.scrollOffset == scrollOffset || l.scrollOffset + n == |cols|
    ensures scrollOffset + n <= |cols| ==> l.scrollOffset == scrollOffset
    ensures l.visible[..|l.visible| - 1] == l.allColumns[l.scrollOffset..l.scrollOffset + |l.visible| - 1]
    ensures l.visible[|l.visible| - 1].title == l.allColumns[l.scrollOffset + |l.visible| - 1].title
    ensures l.visible[|l.visible| - 1].width >= l.allColumns[l.scrollOffset + |l.visible| - 1].width
    ensures TotalWidth(l.visible) ==
      Max(available, TotalWidth(l.allColumns[l.scrollOffset..l.scrollOffset + |l.visible|]))
  {
    var start := ClampOffset(scrollOffset, n, |cols|);
    LayoutResult(cols, ShowWindow(cols, start, n, available), start, tableHeight)
  }

  /** Every column after the first has a positive width; only column 0 is ever narrowed. */
  predicate TailWidthsPositive(cols: seq<Column>) {
    forall k :: 1 <= k < |cols| ==> cols[k].width > 0
  }

  /**
   * Laying out again what `adjustLayout` produced, at the same size and with
   * the clamped offset, changes nothing as long as only column 0 has ever
   * been narrowed: a narrowed column 0 now fits on its own, and the clamped
   * window stays where it is.
   */
  lemma AdjustLayoutIdempotent(cols: seq<Column>, width: int, height: int, offset: int)
    requires |cols| > 0 && offset >= 0
    ensures TailWidthsPositive(cols) ==>
      var l := AdjustLayout(cols, width, height, offset);
      && TailWidthsPositive(l.allColumns)
      && AdjustLayout(l.allColumns, width, height, l.scrollOffset) == l
  {
    if TailWidthsPositive(cols) {
      var available := width - BorderWidth;
      if Fit(cols, available) == 0 {
        var narrowed := cols[0 := cols[0].(width := available)];
        NarrowedFitsAlone(cols, available);
        PlaceAgain(narrowed, 1, offset, available, Max(height - 6, 5));
      } else {
        PlaceAgain(cols, Fit(cols, available), offset, available, Max(height - 6, 5));
      }
    }
  }

  /** Placing a window again at the offset it was clamped to gives the same layout. */
  lemma PlaceAgain(cols: seq<Column>, n: int, offset: int, available: int, tableHeight: int)
    requires 1 <= n <= |cols| && offset >= 0
    ensures var l := Place(cols, n, offset, available, tableHeight);
      Place(cols, n, l.scrollOffset, available, tableHeight) == l
  {
  }

  /** Column 0 narrowed to the available width fits, and nothing positive fits after it. */
  lemma NarrowedFitsAlone(cols: seq<Column>, available: int)
    requires |cols| > 0 && TailWidthsPositive(cols)
    ensures Fit(cols[0 := cols[0].(width := available)], available) == 1
  {
    var narrowed := cols[0 := cols[0].(width := available)];
    assert narrowed[1..] == cols[1..];
    if |cols| > 1 {
      assert cols[1..][0] == cols[1];
    }
  }

  /** At 86 terminal columns the view shows Name, Project and a widened Type. */
  lemma LayoutAt86Columns()
    ensures AdjustLayout(DefaultColumns, 86, 24, 0).visible ==
      [Column("Name", 25), Column("Project", 20), Column("Type", 35)]
  {
    var cs := DefaultColumns;
    assert cs[..4] == [Column("Name", 25), Column("Project", 20), Column("Type", 10), Column("Path", 40)];
    assert Fit(cs, 80) == 3;
    var window := [Column("Name", 25), Column("Project", 20), Column("Type", 10)];
    assert cs[0..3] == window;
    assert TotalWidth(window) == 55;
    assert FillWidth(window, 80) == [Column("Name", 25), Column("Project", 20), Column("Type", 35)];
  }

  /** At the start size of 100 columns the view shows Name, Project and a widened Type. */
  lemma LayoutAt100Columns()
    ensures AdjustLayout(DefaultColumns, 100, 24, 0).visible ==
      [Column("Name", 25), Column("Project", 20), Column("Type", 49)]
  {
    var cs := DefaultColumns;
    assert cs[..4] == [Column("Name", 25), Column("Project", 20), Column("Type", 10), Column("Path", 40)];
    assert Fit(cs, 94) == 3;
    var window := [Column("Name", 25), Column("Project", 20), Column("Type", 10)];
    assert cs[0..3] == window;
    assert TotalWidth(window) == 55;
    assert FillWidth(window, 94) == [Column("Name", 25), Column("Project", 20), Column("Type", 49)];
  }

  /**
   * Narrowing column 0 outlives the narrow terminal: after a 10-column
   * terminal is widened back to 100, the Name column is still 4 wide.
   */
  lemma NameColumnStaysNarrow()
    ensures var narrow := AdjustLayout(DefaultColumns, 10, 24, 0);
      narrow.allColumns[0].width == 4 &&
      AdjustLayout(narrow.allColumns, 100, 24, 0).visible[0] == Column("Name", 4)
  {
    var cs := DefaultColumns;
    assert cs[..1] == [Column("Name", 25)];
    assert Fit(cs, 4) == 0;
    var narrow := AdjustLayout(cs, 10, 24, 0);
    var wide := narrow.allColumns;
    assert wide == [Column("Name", 4), Column("Project", 20), Column("Type", 10),
                    Column("Path", 40), Column("Description", 30)];
    assert wide[..5] == wide;
    assert Fit(wide, 94) == 4;
  }
}

=== FILE: records.dfy ===
/**
 * A registered file (`ConfigEntry`) and the helpers defined on it: file type
 * detection from the path's extension, structural identity and validity,
 * plus the per-column field access the edit form goes through.
 */
module Records {
  import opened Text

  /**
   * One registry entry. `lastOpened` is a timestamp (larger is later; the
   * zero time is the smallest value in use); `tags` is the optional tag list.
   */
  datatype ConfigEntry = ConfigEntry(
    name: string,
    path: string,
    fileType: string,
    project: string,
    description: string,
    lastOpened: int,
    tags: seq<string>)

  /** The label an entry is grouped and displayed under: "" reads as "General". */
  function DisplayProject(c: ConfigEntry): string {
    if c.project == "" then "General" else c.project
  }

  /** Structural identity: the same Name, Path and Project. */
  predicate Equals(a: ConfigEntry, b: ConfigEntry) {
    a.name == b.name && a.path == b.path && a.project == b.project
  }

  /** The fields structural identity is made of, as one value. */
  function Identity(c: ConfigEntry): (string, string, string) {
    (c.name, c.path, c.project)
  }

  lemma EqualsIsEquivalence(a: ConfigEntry, b: ConfigEntry, c: ConfigEntry)
    ensures Equals(a, a)
    ensures Equals(a, b) ==> Equals(b, a)
    ensures Equals(a, b) && Equals(b, c) ==> Equals(a, c)
  {
  }

  /** Type, Description, LastOpened and Tags never influence identity. */
  lemma EqualsIgnoresOtherFields(a: ConfigEntry, b: ConfigEntry, a': ConfigEntry, b': ConfigEntry)
    requires Identity(a) == Identity(a') && Identity(b) == Identity(b')
    ensures Equals(a, b) == Equals(a', b')
  {
  }

  /** An entry needs a Name and a Path. */
  predicate IsValid(c: ConfigEntry) {
    c.name != "" && c.path != ""
  }

  /* ---------------------------------------------------------------------- */
  /* File type detection                                                     */
  /* ---------------------------------------------------------------------- */

  const FileTypes: set<string> :=
    {"json", "yaml", "toml", "ini", "xml", "markdown", "txt", "shell", "go",
     "python", "javascript", "typescript", "ruby"}

  /** The extensions the detector recognises, already lower-case. */
  const KnownExtensions: set<string> :=
    {".json", ".yaml", ".yml", ".toml", ".ini", ".conf", ".xml", ".md",
     ".markdown", ".txt", ".sh", ".go", ".py", ".js", ".ts", ".rb"}

  /**
   * The extension of `path[..i]` as `filepath.Ext` computes it on a
   * slash-separated path: the suffix from the last '.' of the final
   * element, or "" when that element has no '.'.
   */
  function ExtBefore(path: string, i: nat): string
    requires i <= |path|
    decreases i
  {
    if i == 0 then ""
    else if path[i - 1] == '/' then ""
    else if path[i - 1] == '.' then path[i - 1..i]
    else
      var e := ExtBefore(path, i - 1);
      if e == "" then "" else e + [path[i - 1]]
  }

  /** One past the last '/' in `path[..i]`, or 0: where the final element starts. */
  function LastSlashBefore(path: string, i: nat): (s: nat)
    requires i <= |path|
    ensures s <= i
    ensures s == 0 || path[s - 1] == '/'
    ensures forall k :: s <= k < i ==> path[k] != '/'
    decreases i
  {
    if i == 0 then 0
    else if path[i - 1] == '/' then i
    else LastSlashBefore(path, i - 1)
  }

  /** A non-empty extension is a '.' and the rest of the final element, which holds no other '.'. */
  lemma {:induction false} ExtBeforeShape(path: string, i: nat)
    requires i <= |path|
    ensures var e := ExtBefore(path, i);
      && (e == "" || (e[0] == '.' && |e| <= i && e == path[i - |e|..i]))
      && (forall k :: 0 < k < |e| ==> e[k] != '.' && e[k] != '/')
    decreases i
  {
    if i > 0 && path[i - 1] != '/' && path[i - 1] != '.' {
      ExtBeforeShape(path, i - 1);
      var e := ExtBefore(path, i - 1);
      if e != "" {
        assert e + [path[i - 1]] == path[i - 1 - |e|..i];
      }
    }
  }

  /** The extension is empty exactly when the final element has no '.'. */
  lemma {:induction false} ExtBeforeEmpty(path: string, i: nat)
    requires i <= |path|
    ensures ExtBefore(path, i) == "" <==> forall k :: LastSlashBefore(path, i) <= k < i ==> path[k] != '.'
    decreases i
  {
    if i > 0 && path[i - 1] != '/' && path[i - 1] != '.' {
      ExtBeforeEmpty(path, i - 1);
    }
  }

  /** `filepath.Ext(path)`. */
  function Ext(path: string): (e: string)
    ensures e == "" || (e[0] == '.' && |e| <= |path| && e == path[|path| - |e|..])
    ensures forall k :: 0 < k < |e| ==> e[k] != '.' && e[k] != '/'
  {
    ExtBeforeShape(path, |path|);
    ExtBefore(path, |path|)
  }

  /** `filepath.Ext` finds nothing exactly when the final path element has no '.'. */
  lemma ExtEmptyIffNoDot(path: string)
    ensures Ext(path) == "" <==> forall k :: LastSlashBefore(path, |path|) <= k < |path| ==> path[k] != '.'
  {
    ExtBeforeEmpty(path, |path|);
  }

  /** `DetectFileType`: the type tag for a path, chosen by its lower-cased extension. */
  function DetectFileType(path: string): (t: string)
    ensures t in FileTypes
    ensures ToLower(Ext(path)) !in KnownExtensions ==> t == "txt"
    ensures Ext(path) == "" ==> t == "txt"
  {
    TypeOfExtension(ToLower(Ext(path)))
  }

  /** The switch over lower-cased extensions; anything unlisted is "txt". */
  function TypeOfExtension(ext: string): (t: string)
    ensures t in FileTypes
    ensures ext !in KnownExtensions ==> t == "txt"
  {
    match ext
    case ".json" => "json"
    case ".yaml" => "yaml"
    case ".yml" => "yaml"
    case ".toml" => "toml"
    case ".ini" => "ini"
    case ".conf" => "ini"
    case ".xml" => "xml"
    case ".md" => "markdown"
    case ".markdown" => "markdown"
    case ".txt" => "txt"
    case ".sh" => "shell"
    case ".go" => "go"
    case ".py" => "python"
    case ".js" => "javascript"
    case ".ts" => "typescript"
    case ".rb" => "ruby"
    case _ => "txt"
  }

  /** Lower-casing commutes with extension extraction ('.' and '/' are not letters). */
  lemma {:induction false} ExtBeforeLower(path: string, i: nat)
    requires i <= |path|
    ensures ExtBefore(ToLower(path), i) == ToLower(ExtBefore(path, i))
    decreases i
  {
    if i > 0 {
      var c := path[i - 1];
      if c == '.' {
        assert ToLower(path)[i - 1..i] == ['.'] == path[i - 1..i];
      } else if c != '/' {
        ExtBeforeLower(path, i - 1);
        ExtBeforeLowerStep(path, i);
      }
    }
  }

  /** One letter-or-other step of the induction above. */
  lemma ExtBeforeLowerStep(path: string, i: nat)
    requires 0 < i <= |path| && path[i - 1] != '/' && path[i - 1] != '.'
    requires ExtBefore(ToLower(path), i - 1) == ToLower(ExtBefore(path, i - 1))
    ensures ExtBefore(ToLower(path), i) == ToLower(ExtBefore(path, i))
  {
    var c := path[i - 1];
    var lp := ToLower(path);
    assert lp[i - 1] == LowerChar(c) && lp[i - 1] != '/' && lp[i - 1] != '.';
    LowerAppend(ExtBefore(path, i - 1), c);
  }

  lemma LowerAppend(e: string, c: char)
    ensures ToLower(e + [c]) == ToLower(e) + [LowerChar(c)]
  {
  }

  /** The case of the path never changes the detected type: ".JSON" is "json". */
  lemma DetectFileTypeIgnoresCase(path: string)
    ensures DetectFileType(ToLower(path)) == DetectFileType(path)
  {
    ExtBeforeLower(path, |path|);
    LowerIdempotent(Ext(path));
  }

  /** A final element ending in "." + suffix, with no '.' or '/' in the suffix, has that extension. */
  lemma {:induction false} ExtBeforeOfSuffix(stem: string, suffix: string, i: nat)
    requires forall k :: 0 <= k < |suffix| ==> suffix[k] != '.' && suffix[k] != '/'
    requires |stem| < i <= |stem| + 1 + |suffix|
    ensures ExtBefore(stem + "." + suffix, i) == (stem + "." + suffix)[|stem|..i]
    decreases i
  {
    var p := stem + "." + suffix;
    if i > |stem| + 1 {
      assert p[i - 1] == suffix[i - 2 - |stem|];
      ExtBeforeOfSuffix(stem, suffix, i - 1);
      assert p[|stem|..i - 1] + [p[i - 1]] == p[|stem|..i];
    }
  }

  lemma ExtOfSuffix(stem: string, suffix: string)
    requires forall k :: 0 <= k < |suffix| ==> suffix[k] != '.' && suffix[k] != '/'
    ensures Ext(stem + "." + suffix) == "." + suffix
  {
    ExtBeforeOfSuffix(stem, suffix, |stem| + 1 + |suffix|);
    assert (stem + "." + suffix)[|stem|..] == "." + suffix;
  }

  /** A path ending in "." + suffix is typed by the lower-cased "." + suffix alone. */
  lemma DetectFileTypeOfSuffix(stem: string, suffix: string)
    requires forall k :: 0 <= k < |suffix| ==> suffix[k] != '.' && suffix[k] != '/'
    ensures DetectFileType(stem + "." + suffix) == TypeOfExtension(ToLower("." + suffix))
  {
    ExtOfSuffix(stem, suffix);
  }

  /** ".yml" is an alias of ".yaml". */
  lemma YmlIsYaml(stem: string)
    ensures DetectFileType(stem + ".yml") == DetectFileType(stem + ".yaml") == "yaml"
  {
    KnownExtension(stem, ".yml");
    KnownExtension(stem, ".yaml");
  }

  /** ".conf" is an alias of ".ini". */
  lemma ConfIsIni(stem: string)
    ensures DetectFileType(stem + ".conf") == DetectFileType(stem + ".ini") == "ini"
  {
    KnownExtension(stem, ".conf");
    KnownExtension(stem, ".ini");
  }

  /** ".markdown" is an alias of ".md". */
  lemma MarkdownIsMd(stem: string)
    ensures DetectFileType(stem + ".markdown") == DetectFileType(stem + ".md") == "markdown"
  {
    KnownExtension(stem, ".markdown");
    KnownExtension(stem, ".md");
  }

  /** A path ending in a lower-case extension is typed by that extension. */
  lemma KnownExtension(stem: string, ext: string)
    requires |ext| > 0 && ext[0] == '.'
    requires forall k :: 1 <= k < |ext| ==> 'a' <= ext[k] <= 'z'
    ensures DetectFileType(stem + ext) == TypeOfExtension(ext)
  {
    LowerExtOf(stem, ext);
  }

  /** The lower-cased extension of a path ending in a lower-case extension is that extension. */
  lemma LowerExtOf(stem: string, ext: string)
    requires |ext| > 0 && ext[0] == '.'
    requires forall k :: 1 <= k < |ext| ==> 'a' <= ext[k] <= 'z'
    ensures ToLower(Ext(stem + ext)) == ext
  {
    var suffix := SplitExtension(ext);
    LowerOfLower(ext);
    ExtOfSuffix(stem, suffix);
    assert stem + ext == stem + "." + suffix;
  }

  /** A lower-case extension is "." followed by a suffix free of '.' and '/'. */
  lemma SplitExtension(ext: string) returns (suffix: string)
    requires |ext| > 0 && ext[0] == '.'
    requires forall k :: 1 <= k < |ext| ==> 'a' <= ext[k] <= 'z'
    ensures ext == "." + suffix
    ensures forall k :: 0 <= k < |suffix| ==> suffix[k] != '.' && suffix[k] != '/'
    ensures forall k :: 0 <= k < |ext| ==> !('A' <= ext[k] <= 'Z')
  {
    suffix := ext[1..];
    assert ext == "." + suffix;
  }

  /** Lower-casing leaves a string without upper-case letters alone. */
  lemma LowerOfLower(s: string)
    requires forall k :: 0 <= k < |s| ==> !('A' <= s[k] <= 'Z')
    ensures ToLower(s) == s
  {
  }

  /** A path whose final element has no '.' is plain text. */
  lemma DetectFileTypeNoExtension(path: string)
    requires forall k :: 0 <= k < |path| ==> path[k] != '.'
    ensures DetectFileType(path) == "txt"
  {
    ExtEmptyIffNoDot(path);
  }

  /* ---------------------------------------------------------------------- */
  /* The five editable fields, addressed by column number                    */
  /* ---------------------------------------------------------------------- */

  /** Column k of the edit form: Name, Project, Type, Path, Description; "" elsewhere. */
  function Field(c: ConfigEntry, k: int): string {
    if k == 0 then c.name
    else if k == 1 then c.project
    else if k == 2 then c.fileType
    else if k == 3 then c.path
    else if k == 4 then c.description
    else ""
  }

  /** Stores `v` into column k of the edit form; other column numbers change nothing. */
  function WithField(c: ConfigEntry, k: int, v: string): (c': ConfigEntry)
    ensures 0 <= k < 5 ==> Field(c', k) == v
    ensures forall j :: j != k ==> Field(c', j) == Field(c, j)
    ensures !(0 <= k < 5) ==> c' == c
    ensures c'.lastOpened == c.lastOpened && c'.tags == c.tags
  {
    if k == 0 then c.(name := v)
    else if k == 1 then c.(project := v)
    else if k == 2 then c.(fileType := v)
    else if k == 3 then c.(path := v)
    else if k == 4 then c.(description := v)
    else c
  }

  /** The five form fields, plus LastOpened and Tags, determine an entry. */
  lemma FieldsDetermineEntry(a: ConfigEntry, b: ConfigEntry)
    requires forall k :: 0 <= k < 5 ==> Field(a, k) == Field(b, k)
    requires a.lastOpened == b.lastOpened && a.tags == b.tags
    ensures a == b
  {
    assert Field(a, 0) == Field(b, 0) && Field(a, 1) == Field(b, 1) && Field(a, 2) == Field(b, 2);
    assert Field(a, 3) == Field(b, 3) && Field(a, 4) == Field(b, 4);
  }

  /** Storing a field's own value back leaves the entry as it was. */
  lemma WithOwnField(c: ConfigEntry, k: int)
    ensures WithField(c, k, Field(c, k)) == c
  {
    FieldsDetermineEntry(WithField(c, k, Field(c, k)), c);
  }
}

=== FILE: resolver.dfy ===
/**
 * The three display-index resolvers: from a table row back to an entry of
 * the unsorted list, and from an entry to the first row showing it. Each
 * re-sorts the list and matches structurally on Name, Path and Project, so
 * the lowest-index match always wins.
 */
module Resolver {
  import opened Wrappers
  import opened Records
  import opened Storage
  import opened Layout
  import opened Table

  /** The first position at or after `k` whose entry is structurally equal to `target`, or -1. */
  function FirstMatchFrom(configs: seq<ConfigEntry>, target: ConfigEntry, k: nat): (i: int)
    requires k <= |configs|
    ensures i == -1 || k <= i < |configs|
    ensures i == -1 <==> forall j :: k <= j < |configs| ==> !Equals(configs[j], target)
    ensures i != -1 ==> Equals(configs[i], target)
    ensures i != -1 ==> forall j :: k <= j < i ==> !Equals(configs[j], target)
    decreases |configs| - k
  {
    if k == |configs| then -1
    else if Equals(configs[k], target) then k
    else FirstMatchFrom(configs, target, k + 1)
  }

  /** The matching loop both row-to-entry resolvers end with. */
  function FirstMatch(configs: seq<ConfigEntry>, target: ConfigEntry): (i: int)
    ensures -1 <= i < |configs|
    ensures i == -1 <==> forall j :: 0 <= j < |configs| ==> !Equals(configs[j], target)
    ensures i != -1 ==> Equals(configs[i], target) && forall j :: 0 <= j < i ==> !Equals(configs[j], target)
  {
    FirstMatchFrom(configs, target, 0)
  }

  /** Structurally equal targets find the same first match. */
  lemma FirstMatchOfEquals(configs: seq<ConfigEntry>, a: ConfigEntry, b: ConfigEntry)
    requires Equals(a, b)
    ensures FirstMatch(configs, a) == FirstMatch(configs, b)
  {
  }

  /** Every entry of the sorted copy has a structural match in the list it was sorted from. */
  lemma SortedEntryFound(configs: seq<ConfigEntry>, j: int)
    requires 0 <= j < |configs|
    ensures FirstMatch(configs, SortConfigs(configs)[j]) != -1
  {
    var x := SortConfigs(configs)[j];
    assert x in multiset(SortConfigs(configs));
    assert x in multiset(configs);
    var k :| 0 <= k < |configs| && configs[k] == x;
    EqualsIsEquivalence(x, x, x);
  }

  /** Every index-map entry is a sorted position or -1, as `updateTable` leaves it. */
  predicate WellFormed(indices: seq<int>) {
    forall d :: 0 <= d < |indices| ==> indices[d] >= -1
  }

  /** Row `d` is a record row naming a position of the sorted copy. */
  predicate IsRecordRow(configs: seq<ConfigEntry>, indices: seq<int>, d: int) {
    0 <= d < |indices| && 0 <= indices[d] < |configs|
  }

  /**
   * `getOriginalIndexByDisplayIndex`: -1 for a row out of range, a header
   * row or a position past the sorted copy; otherwise the first position of
   * the unsorted list structurally equal to the sorted entry the row shows.
   * That search never comes back empty.
   */
  function OriginalIndex(configs: seq<ConfigEntry>, indices: seq<int>, d: int): (i: int)
    requires WellFormed(indices)
    ensures -1 <= i < |configs|
    ensures i == -1 <==> !IsRecordRow(configs, indices, d)
    ensures i != -1 ==> Equals(configs[i], SortConfigs(configs)[indices[d]])
    ensures i != -1 ==> forall j :: 0 <= j < i ==> !Equals(configs[j], SortConfigs(configs)[indices[d]])
  {
    if d < 0 || d >= |indices| then -1
    else if indices[d] == -1 then -1
    else if indices[d] >= |SortConfigs(configs)| then -1
    else
      SortedEntryFound(configs, indices[d]);
      FirstMatch(configs, SortConfigs(configs)[indices[d]])
  }

  /**
   * `getConfigByDisplayIndex`: the same guards and the same search, handing
   * back the entry found instead of its position.
   */
  function ConfigAt(configs: seq<ConfigEntry>, indices: seq<int>, d: int): (r: Option<ConfigEntry>)
    requires WellFormed(indices)
    ensures r.None? <==> !IsRecordRow(configs, indices, d)
    ensures r.Some? ==> Equals(r.value, SortConfigs(configs)[indices[d]]) && r.value in configs
  {
    if d < 0 || d >= |indices| then None
    else if indices[d] == -1 then None
    else if indices[d] >= |SortConfigs(configs)| then None
    else
      SortedEntryFound(configs, indices[d]);
      var i := FirstMatch(configs, SortConfigs(configs)[indices[d]]);
      if i == -1 then None else Some(configs[i])
  }

  /** The two row-to-entry resolvers agree: the entry is the one at the position. */
  lemma ConfigAtIsOriginalIndex(configs: seq<ConfigEntry>, indices: seq<int>, d: int)
    requires WellFormed(indices)
    ensures var i := OriginalIndex(configs, indices, d);
      ConfigAt(configs, indices, d) == if i == -1 then None else Some(configs[i])
  {
  }

  /** Row `d` is a record row whose entry in `sorted` is structurally equal to `target`. */
  predicate RowShows(sorted: seq<ConfigEntry>, indices: seq<int>, d: int, target: ConfigEntry) {
    IsRecordRow(sorted, indices, d) && Equals(sorted[indices[d]], target)
  }

  /** The scan of `findConfigDisplayIndex` from row `d` on, over the sorted copy. */
  function FindFrom(sorted: seq<ConfigEntry>, indices: seq<int>, target: ConfigEntry, d: nat): (r: int)
    requires WellFormed(indices)
    requires d <= |indices|
    ensures r == -1 || d <= r < |indices|
    ensures r == -1 <==> forall e :: d <= e < |indices| ==> !RowShows(sorted, indices, e, target)
    ensures r != -1 ==> RowShows(sorted, indices, r, target)
    ensures r != -1 ==> forall e :: d <= e < r ==> !RowShows(sorted, indices, e, target)
    decreases |indices| - d
  {
    if d == |indices| then -1
    else if indices[d] == -1 then FindFrom(sorted, indices, target, d + 1)
    else if indices[d] < |sorted| && Equals(sorted[indices[d]], target) then
      assert RowShows(sorted, indices, d, target);
      d
    else FindFrom(sorted, indices, target, d + 1)
  }

  /**
   * `findConfigDisplayIndex`: the first row, skipping headers, whose sorted
   * entry is structurally equal to `target`, or -1.
   */
  function FindDisplayIndex(configs: seq<ConfigEntry>, indices: seq<int>, target: ConfigEntry): (r: int)
    requires WellFormed(indices)
    ensures -1 <= r < |indices|
    ensures r == -1 <==> forall e :: 0 <= e < |indices| ==> !RowShows(SortConfigs(configs), indices, e, target)
    ensures r != -1 ==> RowShows(SortConfigs(configs), indices, r, target)
    ensures r != -1 ==> forall e :: 0 <= e < r ==> !RowShows(SortConfigs(configs), indices, e, target)
  {
    FindFrom(SortConfigs(configs), indices, target, 0)
  }

  /**
   * Finding a row and resolving it back lands on the first entry
   * structurally equal to the target, which therefore exists.
   */
  lemma FindThenResolve(configs: seq<ConfigEntry>, indices: seq<int>, target: ConfigEntry)
    requires WellFormed(indices)
    requires FindDisplayIndex(configs, indices, target) != -1
    ensures var i := OriginalIndex(configs, indices, FindDisplayIndex(configs, indices, target));
      i == FirstMatch(configs, target) && i != -1 && Equals(configs[i], target)
  {
    var d := FindDisplayIndex(configs, indices, target);
    var x := SortConfigs(configs)[indices[d]];
    FirstMatchOfEquals(configs, x, target);
    var i := OriginalIndex(configs, indices, d);
    EqualsIsEquivalence(configs[i], x, target);
  }

  /**
   * Of two structurally equal entries only the earlier can ever be
   * resolved: no row leads to the later one.
   */
  lemma DuplicatesIndistinguishable(configs: seq<ConfigEntry>, indices: seq<int>, i: int, k: int, d: int)
    requires WellFormed(indices)
    requires 0 <= i < k < |configs| && Equals(configs[i], configs[k])
    ensures OriginalIndex(configs, indices, d) != k
  {
  }

  /* ---------------------------------------------------------------------- */
  /* Against the index map `updateTable` builds                              */
  /* ---------------------------------------------------------------------- */

  /** The index map is the one `updateTable` built for the current entries. */
  predicate Consistent(configs: seq<ConfigEntry>, indices: seq<int>, cols: seq<Column>) {
    |cols| > 0 && indices == UpdateTable(configs, cols).indices
  }

  /** On a consistent map a row resolves to nothing exactly when it is a header or out of range. */
  lemma ResolvesExactlyRecordRows(configs: seq<ConfigEntry>, indices: seq<int>, cols: seq<Column>, d: int)
    requires Consistent(configs, indices, cols)
    ensures OriginalIndex(configs, indices, d) == -1 <==> (d < 0 || d >= |indices| || indices[d] == -1)
  {
  }

  /** Every sorted position is shown by some row of a consistent map. */
  lemma RowOfSortedPosition(configs: seq<ConfigEntry>, indices: seq<int>, cols: seq<Column>, j: int)
    returns (d: int)
    requires Consistent(configs, indices, cols)
    requires 0 <= j < |configs|
    ensures 0 <= d < |indices| && indices[d] == j
  {
    d := RecordPosition(SortConfigs(configs), cols, "", 0, j);
  }

  /**
   * On a consistent map every entry can be found: the search for any
   * registered entry (or anything structurally equal to one) succeeds.
   */
  lemma FindComplete(configs: seq<ConfigEntry>, indices: seq<int>, cols: seq<Column>, target: ConfigEntry, k: int)
    requires Consistent(configs, indices, cols)
    requires 0 <= k < |configs| && Equals(configs[k], target)
    ensures FindDisplayIndex(configs, indices, target) != -1
  {
    var x := configs[k];
    assert x in multiset(configs);
    assert x in multiset(SortConfigs(configs));
    var j :| 0 <= j < |configs| && SortConfigs(configs)[j] == x;
    var d := RowOfSortedPosition(configs, indices, cols, j);
    assert RowShows(SortConfigs(configs), indices, d, target);
  }

  /**
   * Which entries the cursor can reach: on a consistent map, position k is
   * the resolution of some row exactly when no earlier entry is structurally
   * equal to it.
   */
  lemma ReachableIffFirstOfIdentity(configs: seq<ConfigEntry>, indices: seq<int>, cols: seq<Column>, k: int)
    requires Consistent(configs, indices, cols)
    requires 0 <= k < |configs|
    ensures (exists d :: 0 <= d < |indices| && OriginalIndex(configs, indices, d) == k) <==>
      FirstMatch(configs, configs[k]) == k
  {
    EqualsIsEquivalence(configs[k], configs[k], configs[k]);
    if FirstMatch(configs, configs[k]) == k {
      FindComplete(configs, indices, cols, configs[k], k);
      FindThenResolve(configs, indices, configs[k]);
    }
    if exists d :: 0 <= d < |indices| && OriginalIndex(configs, indices, d) == k {
      var d :| 0 <= d < |indices| && OriginalIndex(configs, indices, d) == k;
      var x := SortConfigs(configs)[indices[d]];
      FirstMatchOfEquals(configs, configs[k], x);
    }
  }
}

=== FILE: session.dfy ===
/**
 * Properties of the key-handling state machine across messages: the
 * invariant every message keeps (so no message ever panics), the edit
 * form's field cycling, and what adding and deleting do to the entries.
 */
module Session {
  import opened Records
  import opened Layout
  import opened Table
  import opened Resolver
  import opened App

  /* ---------------------------------------------------------------------- */
  /* The invariant                                                           */
  /* ---------------------------------------------------------------------- */

  lemma SaveEditKeepsValid(m: Model, env: Env)
    requires Valid(m)
    ensures Valid(SaveEdit(m, env))
    ensures SaveEdit(m, env).editMode == m.editMode && SaveEdit(m, env).editRow == m.editRow
    ensures SaveEdit(m, env).editCol == m.editCol
  {
  }

  lemma EditKeepsValid(m: Model, key: string, env: Env)
    requires Valid(m) && m.editMode
    ensures UpdateEdit(m, key, env).Next? && Valid(UpdateEdit(m, key, env).m)
  {
    var m1 := SaveEdit(m, env);
    SaveEditKeepsValid(m, env);
    var s := UpdateEdit(m, key, env);
    if key == "esc" {
      assert s == Next(CancelEdit(m), NoCmd);
    } else if key == "enter" {
      assert s == Next(CancelEdit(m1), ShowStatus("\U{2705} File updated"));
    } else if key == "tab" {
      assert s == MoveTo(m1, GoRem(m1.editCol + 1, 5));
      MoveKeepsValid(m1, GoRem(m1.editCol + 1, 5));
    } else if key == "shift+tab" {
      assert s == MoveTo(m1, GoRem(m1.editCol - 1 + 5, 5));
      MoveKeepsValid(m1, GoRem(m1.editCol - 1 + 5, 5));
    } else {
      assert s == Next(m.(input := env.inputAfter), Widget);
    }
  }

  lemma MoveKeepsValid(m: Model, col: int)
    requires Valid(m) && m.editMode && 0 <= col < 5
    ensures MoveTo(m, col).Next? && Valid(MoveTo(m, col).m)
  {
  }

  lemma ConfirmKeepsValid(m: Model, key: string)
    requires Valid(m) && !m.editMode
    ensures Valid(UpdateDeleteConfirm(m, key).m)
  {
  }

  lemma ScrollKeepsValid(m: Model)
    requires Valid(m)
    ensures Valid(ScrollLeft(m).m) && Valid(ScrollRight(m).m)
  {
    ScrollLeftKeepsValid(m);
    ScrollRightKeepsValid(m);
  }

  lemma ScrollLeftKeepsValid(m: Model)
    requires Valid(m)
    ensures Valid(ScrollLeft(m).m)
  {
  }

  lemma ScrollRightKeepsValid(m: Model)
    requires Valid(m)
    ensures Valid(ScrollRight(m).m)
  {
  }

  /** Left moves the window exactly one column left, keeping its width in columns. */
  lemma ScrollLeftStep(m: Model)
    requires Valid(m) && Arranged(m) && m.scrollOffset > 0
    ensures var m' := ScrollLeft(m).m;
      && m'.scrollOffset == m.scrollOffset - 1 && |m'.columns| == |m.columns|
      && m'.allColumns == m.allColumns && m'.configs == m.configs
  {
  }

  /** Right, while columns remain beyond the window, moves it exactly one column right. */
  lemma ScrollRightStep(m: Model)
    requires Valid(m) && Arranged(m) && m.scrollOffset + |m.columns| < |m.allColumns|
    ensures var m' := ScrollRight(m).m;
      && m'.scrollOffset == m.scrollOffset + 1 && |m'.columns| == |m.columns|
      && m'.allColumns == m.allColumns && m'.configs == m.configs
  {
  }

  /** Right then left brings back the same columns, offset and rows. */
  lemma ScrollRightThenLeft(m: Model)
    requires Valid(m) && Arranged(m) && m.scrollOffset + |m.columns| < |m.allColumns|
    ensures var m2 := ScrollLeft(ScrollRight(m).m).m;
      m2.columns == m.columns && m2.scrollOffset == m.scrollOffset && m2.rows == m.rows
  {
    ScrollRightKeepsValid(m);
    ScrollRightStep(m);
  }

  lemma StartEditKeepsValid(m: Model)
    requires Valid(m)
    ensures Valid(StartEdit(m))
  {
  }

  lemma AddKeepsValid(m: Model)
    requires Valid(m)
    ensures Valid(AddEntry(m).m)
  {
    var m1 := RefreshTable(m.(configs := m.configs + [NewEntry]));
    var d := FindDisplayIndex(m1.configs, m1.configIndices, NewEntry);
    if d != -1 {
      StartEditKeepsValid(m1.(cursor := d));
    }
  }

  lemma NormalKeepsValid(m: Model, key: string, env: Env)
    requires Valid(m) && !m.editMode
    ensures UpdateNormal(m, key, env).Next? && Valid(UpdateNormal(m, key, env).m)
  {
    if key == "e" {
      StartEditKeepsValid(m);
    } else if key == "n" || key == "a" {
      AddKeepsValid(m);
    } else if key == "left" || key == "right" {
      ScrollKeepsValid(m);
    } else if key == "r" {
      RefreshKeepsValid(m, env);
    } else {
      OtherKeyKeepsValid(m, key, env);
    }
  }

  lemma RefreshKeepsValid(m: Model, env: Env)
    requires Valid(m) && !m.editMode
    ensures Valid(UpdateNormal(m, "r", env).m)
  {
    var s := UpdateNormal(m, "r", env);
    assert Shown(s.m) && s.m.(configs := m.configs, rows := m.rows, configIndices := m.configIndices) == m;
  }

  lemma OtherKeyKeepsValid(m: Model, key: string, env: Env)
    requires Valid(m) && !m.editMode
    requires key !in {"e", "n", "a", "left", "right", "r"}
    ensures Valid(UpdateNormal(m, key, env).m)
  {
    var s := UpdateNormal(m, key, env);
    if key == "d" || key == "delete" {
      assert s == RequestDelete(m);
    } else if key == " " || key == "enter" {
      assert s == OpenSelected(m);
    }
  }

  /**
   * Every message keeps the invariant, so no message ever panics: with
   * `startEdit` refusing header rows, edit mode always has a row to index.
   */
  lemma UpdatePreservesValid(m: Model, msg: Msg, env: Env)
    requires Valid(m)
    ensures Update(m, msg, env).Next? && Valid(Update(m, msg, env).m)
  {
    match msg
    case Key(key) =>
      if m.editMode {
        EditKeepsValid(m, key, env);
      } else if m.confirmDelete {
        ConfirmKeepsValid(m, key);
      } else {
        NormalKeepsValid(m, key, env);
      }
    case Resize(_, _) =>
    case Status(_) =>
    case Other =>
  }

  /**
   * Every message keeps the layout invariant: a resize and a scroll lay the
   * columns out again, and every other message leaves the layout alone.
   */
  lemma UpdateKeepsArranged(m: Model, msg: Msg, env: Env)
    requires Wired(m)
    ensures var s := Update(m, msg, env);
      s.Next? && Arranged(m) ==> Arranged(s.m)
  {
    match msg
    case Key(key) =>
      if m.editMode {
        EditKeepsLayout(m, key, env);
      } else if m.confirmDelete {
        ConfirmKeepsLayout(m, key);
      } else {
        NormalKeepsArranged(m, key, env);
      }
    case Resize(_, _) =>
    case Status(_) =>
      assert SameLayout(m, Update(m, msg, env).m);
    case Other =>
      assert SameLayout(m, Update(m, msg, env).m);
  }

  lemma EditKeepsLayout(m: Model, key: string, env: Env)
    requires |m.columns| > 0
    ensures UpdateEdit(m, key, env).Next? ==> SameLayout(m, UpdateEdit(m, key, env).m)
  {
  }

  lemma ConfirmKeepsLayout(m: Model, key: string)
    requires |m.columns| > 0
    ensures SameLayout(m, UpdateDeleteConfirm(m, key).m)
  {
  }

  lemma NormalKeepsArranged(m: Model, key: string, env: Env)
    requires Wired(m)
    ensures Arranged(m) ==> Arranged(UpdateNormal(m, key, env).m)
  {
    if key == "left" || key == "right" {
      ScrollKeepsArranged(m);
    } else {
      NormalKeepsLayout(m, key, env);
    }
  }

  lemma ScrollKeepsArranged(m: Model)
    requires Wired(m)
    ensures Arranged(m) ==> Arranged(ScrollLeft(m).m) && Arranged(ScrollRight(m).m)
  {
  }

  lemma NormalKeepsLayout(m: Model, key: string, env: Env)
    requires Wired(m) && key != "left" && key != "right"
    ensures SameLayout(m, UpdateNormal(m, key, env).m)
  {
    var s := UpdateNormal(m, key, env);
    if key == "n" || key == "a" {
      AddKeepsLayout(m);
    } else if key == "d" || key == "delete" {
      assert s == RequestDelete(m);
    } else if key == " " || key == "enter" {
      assert s == OpenSelected(m);
    }
  }

  lemma AddKeepsLayout(m: Model)
    requires Wired(m)
    ensures SameLayout(m, AddEntry(m).m)
  {
    var m1 := RefreshTable(m.(configs := m.configs + [NewEntry]));
    assert SameLayout(m, m1);
    var d := FindDisplayIndex(m1.configs, m1.configIndices, NewEntry);
    if d != -1 {
      StartEditKeepsLayout(m1.(cursor := d));
    }
  }

  lemma StartEditKeepsLayout(m: Model)
    requires WellFormed(m.configIndices)
    ensures SameLayout(m, StartEdit(m))
  {
  }

  /**
   * Any sequence of messages from the start keeps the invariant and never
   * panics, and keeps the columns laid out for the current size and offset.
   */
  function Run(m: Model, msgs: seq<Msg>, envs: seq<Env>): (s: Step)
    requires Valid(m) && |envs| == |msgs|
    ensures s.Next? && Valid(s.m)
    ensures Arranged(m) ==> Arranged(s.m)
    decreases |msgs|
  {
    if |msgs| == 0 then Next(m, NoCmd)
    else
      UpdatePreservesValid(m, msgs[0], envs[0]);
      UpdateKeepsArranged(m, msgs[0], envs[0]);
      var s := Update(m, msgs[0], envs[0]);
      Run(s.m, msgs[1..], envs[1..])
  }

  /* ---------------------------------------------------------------------- */
  /* Edit on a header row                                                    */
  /* ---------------------------------------------------------------------- */

  /** Row 0 of a freshly started, non-empty list is a header. */
  lemma InitCursorOnHeader(configs: seq<ConfigEntry>)
    requires |configs| > 0
    ensures OriginalIndex(Init(configs).configs, Init(configs).configIndices, Init(configs).cursor) == -1
  {
    var m := Init(configs);
    FirstRowIsHeader(configs, m.columns);
  }

  /** The program starts showing three of the five columns, the last widened to the window. */
  lemma InitShowsThreeColumns(configs: seq<ConfigEntry>)
    ensures Init(configs).columns == [Column("Name", 25), Column("Project", 20), Column("Type", 49)]
  {
    LayoutAt100Columns();
  }

  /**
   * As written, pressing "e" right after start (the cursor on the first
   * project header) enters edit mode with editRow == -1, and the next tab
   * or shift+tab indexes configs[-1]. The edit column is still -1, which
   * the footer of the next render already uses as an index.
   */
  lemma TabAfterEditOnHeaderPanics(configs: seq<ConfigEntry>, env: Env)
    requires |configs| > 0
    ensures var m := StartEditAsWritten(Init(configs));
      && m.editMode && m.editRow == -1 && m.editCol == -1
      && UpdateEdit(m, "tab", env).Panic?
      && UpdateEdit(m, "shift+tab", env).Panic?
  {
    InitCursorOnHeader(configs);
    MoveOffRowPanics(StartEditAsWritten(Init(configs)), env);
  }

  /** Tab and shift+tab index the edited row, so an edited row outside the list panics. */
  lemma MoveOffRowPanics(m: Model, env: Env)
    requires |m.columns| > 0 && !(0 <= m.editRow < |m.configs|)
    ensures UpdateEdit(m, "tab", env).Panic? && UpdateEdit(m, "shift+tab", env).Panic?
  {
  }

  /** With the corrected `startEdit`, "e" on a header row changes nothing. */
  lemma EditOnHeaderIgnored(configs: seq<ConfigEntry>, env: Env)
    requires |configs| > 0
    ensures Update(Init(configs), Key("e"), env) == Next(Init(configs), NoCmd)
  {
    InitCursorOnHeader(configs);
  }

  /* ---------------------------------------------------------------------- */
  /* The edit form                                                           */
  /* ---------------------------------------------------------------------- */

  /**
   * Tab then shift+tab returns to the same field, which now holds what was
   * typed, and the input shows it again.
   */
  lemma TabThenShiftTabRestoresField(m: Model, env: Env, env': Env) returns (m1: Model, m2: Model)
    requires Valid(m) && m.editMode
    ensures Update(m, Key("tab"), env) == Next(m1, NoCmd)
    ensures Update(m1, Key("shift+tab"), env') == Next(m2, NoCmd)
    ensures m2.editMode && m2.editRow == m.editRow && m2.editCol == m.editCol
    ensures 0 <= m.editRow < |m2.configs| && Field(m2.configs[m.editRow], m.editCol) == Stored(m, env)
    ensures m2.input == Stored(m, env)
  {
    m1 := TabStep(m, env);
    m2 := ShiftTabStep(m1, env');
  }

  /** The field numbers tab and shift+tab move to from a valid field. */
  lemma GoRemOfField(a: int)
    requires 0 <= a < 10
    ensures GoRem(a, 5) == if a >= 5 then a - 5 else a
  {
  }

  /** Tab: save the field, then show the next one; the entry keeps what was typed. */
  lemma TabStep(m: Model, env: Env) returns (m': Model)
    requires Valid(m) && m.editMode
    ensures Update(m, Key("tab"), env) == Next(m', NoCmd) && Valid(m')
    ensures m'.editMode && m'.editRow == m.editRow && m'.editCol == (if m.editCol == 4 then 0 else m.editCol + 1)
    ensures m'.input == Field(m'.configs[m.editRow], m'.editCol)
    ensures Field(m'.configs[m.editRow], m.editCol) == Stored(m, env)
    ensures |m'.configs| == |m.configs|
    ensures forall k :: k != m.editCol ==> Field(m'.configs[m.editRow], k) == Field(m.configs[m.editRow], k)
    ensures m'.configs[m.editRow].lastOpened == m.configs[m.editRow].lastOpened
    ensures m'.configs[m.editRow].tags == m.configs[m.editRow].tags
    ensures forall j :: 0 <= j < |m.configs| && j != m.editRow ==> m'.configs[j] == m.configs[j]
    ensures m'.(configs := m.configs, rows := m.rows, configIndices := m.configIndices,
                editCol := m.editCol, input := m.input) == m
  {
    SaveEditKeepsValid(m, env);
    EditKeepsValid(m, "tab", env);
    GoRemOfField(m.editCol + 1);
    m' := Update(m, Key("tab"), env).m;
  }

  /** Shift+tab: save the field, then show the previous one; the entry keeps what was typed. */
  lemma ShiftTabStep(m: Model, env: Env) returns (m': Model)
    requires Valid(m) && m.editMode
    ensures Update(m, Key("shift+tab"), env) == Next(m', NoCmd) && Valid(m')
    ensures m'.editMode && m'.editRow == m.editRow && m'.editCol == (if m.editCol == 0 then 4 else m.editCol - 1)
    ensures m'.input == Field(m'.configs[m.editRow], m'.editCol)
    ensures Field(m'.configs[m.editRow], m.editCol) == Stored(m, env)
    ensures |m'.configs| == |m.configs|
    ensures forall k :: k != m.editCol ==> Field(m'.configs[m.editRow], k) == Field(m.configs[m.editRow], k)
    ensures m'.configs[m.editRow].lastOpened == m.configs[m.editRow].lastOpened
    ensures m'.configs[m.editRow].tags == m.configs[m.editRow].tags
    ensures forall j :: 0 <= j < |m.configs| && j != m.editRow ==> m'.configs[j] == m.configs[j]
    ensures m'.(configs := m.configs, rows := m.rows, configIndices := m.configIndices,
                editCol := m.editCol, input := m.input) == m
  {
    SaveEditKeepsValid(m, env);
    EditKeepsValid(m, "shift+tab", env);
    GoRemOfField(m.editCol - 1 + 5);
    m' := Update(m, Key("shift+tab"), env).m;
  }

  /** Esc after tab keeps what tab saved: cancelling does not undo committed fields. */
  lemma CancelKeepsTabbedField(m: Model, env: Env, env': Env)
    requires Valid(m) && m.editMode
    ensures var s1 := Update(m, Key("tab"), env);
      s1.Next? &&
      var s2 := Update(s1.m, Key("esc"), env');
      && s2.Next? && !s2.m.editMode
      && s2.m.configs == s1.m.configs
      && Field(s2.m.configs[m.editRow], m.editCol) == Stored(m, env)
  {
    EditKeepsValid(m, Key("tab").key, env);
    SaveEditKeepsValid(m, env);
  }

  /**
   * Enter commits the field being edited: that field of the edited entry
   * now holds what was typed, its other fields and every other entry are
   * kept, and the form closes.
   */
  lemma EnterStoresField(m: Model, env: Env)
    requires Valid(m) && m.editMode
    ensures var s := Update(m, Key("enter"), env);
      && s.Next? && !s.m.editMode && Valid(s.m)
      && |s.m.configs| == |m.configs|
      && Field(s.m.configs[m.editRow], m.editCol) == Stored(m, env)
      && (forall k :: k != m.editCol ==> Field(s.m.configs[m.editRow], k) == Field(m.configs[m.editRow], k))
      && (forall j :: 0 <= j < |m.configs| && j != m.editRow ==> s.m.configs[j] == m.configs[j])
  {
    SaveEditKeepsValid(m, env);
    EditKeepsValid(m, "enter", env);
  }

  /**
   * Enter on a text field whose input still shows the stored value changes
   * no entry. The Path field is excluded: its input is re-expanded on save.
   */
  lemma EnterUntouchedKeepsEntries(m: Model, env: Env)
    requires Valid(m) && m.editMode && m.editCol != 3
    requires m.input == Field(m.configs[m.editRow], m.editCol)
    ensures Update(m, Key("enter"), env).m.configs == m.configs
  {
    EnterStoresField(m, env);
    var c := Update(m, Key("enter"), env).m.configs[m.editRow];
    FieldsDetermineEntry(c, m.configs[m.editRow]);
  }

  /**
   * Committing a field keeps a valid entry valid, except when the field is
   * Name or Path and what is stored is empty.
   */
  lemma SaveEditValidity(m: Model, env: Env)
    requires Valid(m) && m.editMode && IsValid(m.configs[m.editRow])
    ensures var c := SaveEdit(m, env).configs[m.editRow];
      IsValid(c) <==> !((m.editCol == 0 || m.editCol == 3) && Stored(m, env) == "")
  {
    var c := SaveEdit(m, env).configs[m.editRow];
    var old_ := m.configs[m.editRow];
    assert Field(c, 0) == c.name && Field(c, 3) == c.path;
    assert Field(old_, 0) == old_.name && Field(old_, 3) == old_.path;
  }

  /** The add key's placeholder is itself a valid entry. */
  lemma NewEntryIsValid()
    ensures IsValid(NewEntry)
  {
  }

  /**
   * Validity is never enforced: clearing the Name field and pressing enter
   * stores an entry without a name.
   */
  lemma EnterCanInvalidate(m: Model, env: Env)
    requires Valid(m) && m.editMode && m.editCol == 0 && m.input == ""
    ensures var s := Update(m, Key("enter"), env);
      s.Next? && !IsValid(s.m.configs[m.editRow])
  {
    SaveEditKeepsValid(m, env);
  }

  /* ---------------------------------------------------------------------- */
  /* Adding and deleting                                                     */
  /* ---------------------------------------------------------------------- */

  /**
   * The add key appends the placeholder and opens the edit form on the
   * first entry structurally equal to it: when an earlier placeholder was
   * never renamed, that earlier entry is edited, not the new one.
   */
  lemma AddEditsFirstPlaceholder(m: Model, env: Env)
    requires Valid(m) && !m.editMode && !m.confirmDelete
    ensures var s := Update(m, Key("a"), env);
      && s.Next?
      && s.m.configs == m.configs + [NewEntry]
      && s.m.editMode && s.m.editCol == 0 && s.m.input == NewEntry.name
      && s.m.editRow == FirstMatch(m.configs + [NewEntry], NewEntry)
      && (forall k :: 0 <= k < |m.configs| && Equals(m.configs[k], NewEntry) ==> s.m.editRow <= k)
  {
    var configs := m.configs + [NewEntry];
    var m1 := RefreshTable(m.(configs := configs));
    assert Consistent(m1.configs, m1.configIndices, m1.columns);
    EqualsIsEquivalence(NewEntry, NewEntry, NewEntry);
    FindComplete(m1.configs, m1.configIndices, m1.columns, NewEntry, |m.configs|);
    FindThenResolve(m1.configs, m1.configIndices, NewEntry);
    forall k | 0 <= k < |m.configs| && Equals(m.configs[k], NewEntry)
      ensures FirstMatch(configs, NewEntry) <= k
    {
      assert configs[k] == m.configs[k];
    }
  }

  /**
   * "d" on a record row followed by "y" removes exactly the entry that row
   * resolves to and keeps the rest in order.
   */
  lemma DeleteRemovesSelected(m: Model, env: Env, env': Env)
    requires Valid(m) && !m.editMode && !m.confirmDelete
    requires IsRecordRow(m.configs, m.configIndices, m.cursor)
    ensures var i := OriginalIndex(m.configs, m.configIndices, m.cursor);
      var s1 := Update(m, Key("d"), env);
      && s1.Next? && s1.m.confirmDelete && s1.m.deleteIndex == i
      && var s2 := Update(s1.m, Key("y"), env');
         && s2.Next? && !s2.m.confirmDelete
         && s2.m.configs == m.configs[..i] + m.configs[i + 1..]
         && multiset(s2.m.configs) + multiset{m.configs[i]} == multiset(m.configs)
  {
    var i := OriginalIndex(m.configs, m.configIndices, m.cursor);
    var r := Remove(m.configs, i);
    assert r == m.configs[..i] + m.configs[i + 1..];
  }

  /** "d" followed by "n" leaves the entries and the table as they were. */
  lemma DeleteCancelledKeepsEntries(m: Model, env: Env, env': Env)
    requires Valid(m) && !m.editMode && !m.confirmDelete
    requires IsRecordRow(m.configs, m.configIndices, m.cursor)
    ensures var s1 := Update(m, Key("d"), env);
      && s1.Next?
      && var s2 := Update(s1.m, Key("n"), env');
         && s2.Next? && !s2.m.confirmDelete && s2.m.deleteIndex == -1
         && s2.m.configs == m.configs && s2.m.rows == m.rows
  {
  }
}

=== FILE: sorting.dfy ===
/**
 * The orders the registry sorts entries by, each given as the "less"
 * function handed to Go's `sort.Slice`, and one fixed deterministic sort
 * (insertion sort) proved to return a sorted permutation of its input.
 * Which of several equal-key entries comes first is NOT claimed to match
 * `sort.Slice`, whose tie order is unspecified.
 */
module Sorting {
  import opened Text
  import opened Records

  datatype Ordering =
    | ProjectThenName   // SortConfigs and getSortedConfigs
    | RecentlyOpened    // SortByRecentlyOpened
    | ByName            // SortByName
    | ByType            // SortByType
    | ByPath            // SortByPath

  /**
   * Two-level case-insensitive comparison: by the primary keys unless they
   * are equal ignoring case, then by the secondary keys.
   */
  predicate KeyedLess(p1: string, p2: string, s1: string, s2: string) {
    if !EqualFold(p1, p2) then Less(ToLower(p1), ToLower(p2))
    else Less(ToLower(s1), ToLower(s2))
  }

  /** The "less" function of each order: `a` must come strictly before `b`. */
  predicate Before(o: Ordering, a: ConfigEntry, b: ConfigEntry) {
    match o
    case ProjectThenName => KeyedLess(DisplayProject(a), DisplayProject(b), a.name, b.name)
    case RecentlyOpened => a.lastOpened > b.lastOpened
    case ByName => Less(ToLower(a.name), ToLower(b.name))
    case ByType => KeyedLess(a.fileType, b.fileType, a.name, b.name)
    case ByPath => Less(ToLower(a.path), ToLower(b.path))
  }

  /** No entry is strictly before its predecessor. */
  predicate Sorted(o: Ordering, s: seq<ConfigEntry>) {
    forall i :: 0 < i < |s| ==> !Before(o, s[i], s[i - 1])
  }

  /** Lexicographic "at most" on (primary, secondary) pairs of lower-cased keys. */
  predicate KeyAtMost(p1: string, s1: string, p2: string, s2: string) {
    Less(p1, p2) || (p1 == p2 && LessOrEqual(s1, s2))
  }

  lemma KeyedLessAsymmetric(p1: string, p2: string, s1: string, s2: string)
    ensures KeyedLess(p1, p2, s1, s2) ==> !KeyedLess(p2, p1, s2, s1)
  {
    LessAsymmetric(ToLower(p1), ToLower(p2));
    LessAsymmetric(ToLower(s1), ToLower(s2));
  }

  /** Not being before is being at most, in key terms. */
  lemma NotKeyedLessIsKeyAtMost(p1: string, p2: string, s1: string, s2: string)
    ensures !KeyedLess(p2, p1, s2, s1) <==> KeyAtMost(ToLower(p1), ToLower(s1), ToLower(p2), ToLower(s2))
  {
    NotLessIsLessOrEqual(ToLower(p1), ToLower(p2));
    NotLessIsLessOrEqual(ToLower(s1), ToLower(s2));
    LessIrreflexive(ToLower(p1));
  }

  lemma KeyAtMostTransitive(p1: string, s1: string, p2: string, s2: string, p3: string, s3: string)
    requires KeyAtMost(p1, s1, p2, s2) && KeyAtMost(p2, s2, p3, s3)
    ensures KeyAtMost(p1, s1, p3, s3)
  {
    if Less(p1, p2) && Less(p2, p3) {
      LessTransitive(p1, p2, p3);
    } else if p1 == p2 && p2 == p3 {
      LessOrEqualTransitive(s1, s2, s3);
    }
  }

  lemma BeforeAsymmetric(o: Ordering, a: ConfigEntry, b: ConfigEntry)
    ensures Before(o, a, b) ==> !Before(o, b, a)
  {
    match o
    case ProjectThenName =>
      KeyedLessAsymmetric(DisplayProject(a), DisplayProject(b), a.name, b.name);
    case RecentlyOpened =>
    case ByName =>
      LessAsymmetric(ToLower(a.name), ToLower(b.name));
    case ByType =>
      KeyedLessAsymmetric(a.fileType, b.fileType, a.name, b.name);
    case ByPath =>
      LessAsymmetric(ToLower(a.path), ToLower(b.path));
  }

  /** "Not before" is transitive for every order: each is a strict weak order. */
  lemma NotBeforeTransitive(o: Ordering, a: ConfigEntry, b: ConfigEntry, c: ConfigEntry)
    requires !Before(o, b, a) && !Before(o, c, b)
    ensures !Before(o, c, a)
  {
    match o
    case ProjectThenName =>
      var pa, pb, pc := DisplayProject(a), DisplayProject(b), DisplayProject(c);
      NotKeyedLessIsKeyAtMost(pa, pb, a.name, b.name);
      NotKeyedLessIsKeyAtMost(pb, pc, b.name, c.name);
      NotKeyedLessIsKeyAtMost(pa, pc, a.name, c.name);
      KeyAtMostTransitive(ToLower(pa), ToLower(a.name), ToLower(pb), ToLower(b.name), ToLower(pc), ToLower(c.name));
    case RecentlyOpened =>
    case ByName =>
      NotLessIsLessOrEqual(ToLower(a.name), ToLower(b.name));
      NotLessIsLessOrEqual(ToLower(b.name), ToLower(c.name));
      NotLessIsLessOrEqual(ToLower(a.name), ToLower(c.name));
      LessOrEqualTransitive(ToLower(a.name), ToLower(b.name), ToLower(c.name));
    case ByType =>
      NotKeyedLessIsKeyAtMost(a.fileType, b.fileType, a.name, b.name);
      NotKeyedLessIsKeyAtMost(b.fileType, c.fileType, b.name, c.name);
      NotKeyedLessIsKeyAtMost(a.fileType, c.fileType, a.name, c.name);
      KeyAtMostTransitive(ToLower(a.fileType), ToLower(a.name), ToLower(b.fileType), ToLower(b.name), ToLower(c.fileType), ToLower(c.name));
    case ByPath =>
      NotLessIsLessOrEqual(ToLower(a.path), ToLower(b.path));
      NotLessIsLessOrEqual(ToLower(b.path), ToLower(c.path));
      NotLessIsLessOrEqual(ToLower(a.path), ToLower(c.path));
      LessOrEqualTransitive(ToLower(a.path), ToLower(b.path), ToLower(c.path));
  }

  /** Inserts `x` in front of the first entry that is not strictly before it. */
  function Insert(o: Ordering, x: ConfigEntry, s: seq<ConfigEntry>): (r: seq<ConfigEntry>)
    requires Sorted(o, s)
    ensures multiset(r) == multiset(s) + multiset{x}
    ensures Sorted(o, r)
    ensures |s| == 0 ==> r == [x]
    ensures |s| > 0 ==> r[0] == x || r[0] == s[0]
    decreases |s|
  {
    if |s| == 0 then [x]
    else if Before(o, s[0], x) then
      BeforeAsymmetric(o, s[0], x);
      assert s == [s[0]] + s[1..];
      [s[0]] + Insert(o, x, s[1..])
    else
      [x] + s
  }

  /** The one sort every view and storage helper uses. */
  function Sort(o: Ordering, s: seq<ConfigEntry>): (r: seq<ConfigEntry>)
    ensures multiset(r) == multiset(s)
    ensures |r| == |s|
    ensures Sorted(o, r)
    decreases |s|
  {
    if |s| == 0 then []
    else
      assert s == [s[0]] + s[1..];
      Insert(o, s[0], Sort(o, s[1..]))
  }

  /** Adjacent order extends to every pair: no later entry is before an earlier one. */
  lemma {:induction false} SortedPair(o: Ordering, s: seq<ConfigEntry>, i: int, j: int)
    requires Sorted(o, s)
    requires 0 <= i < j < |s|
    ensures !Before(o, s[j], s[i])
    decreases j - i
  {
    if j > i + 1 {
      SortedPair(o, s, i, j - 1);
      NotBeforeTransitive(o, s[i], s[j - 1], s[j]);
    }
  }

  lemma SortedAllPairs(o: Ordering, s: seq<ConfigEntry>)
    requires Sorted(o, s)
    ensures forall i, j :: 0 <= i < j < |s| ==> !Before(o, s[j], s[i])
  {
    forall i, j | 0 <= i < j < |s|
      ensures !Before(o, s[j], s[i])
    {
      SortedPair(o, s, i, j);
    }
  }

  /** Sorting an already sorted list leaves it as it is. */
  lemma {:induction false} SortOfSorted(o: Ordering, s: seq<ConfigEntry>)
    requires Sorted(o, s)
    ensures Sort(o, s) == s
    decreases |s|
  {
    if |s| > 0 {
      assert Sorted(o, s[1..]);
      SortOfSorted(o, s[1..]);
      if |s| > 1 {
        assert !Before(o, s[1], s[0]);
        assert s == [s[0]] + s[1..];
      }
    }
  }

  /** Sorting is idempotent: re-sorting a sorted view reproduces it. */
  lemma SortIdempotent(o: Ordering, s: seq<ConfigEntry>)
    ensures Sort(o, Sort(o, s)) == Sort(o, s)
  {
    SortOfSorted(o, Sort(o, s));
  }
}

=== FILE: storage.dfy ===
/**
 * The list helpers of the storage package: the four sort orders offered
 * over a copy of the entry list, and the duplicate-path lookup. Reading and
 * writing the registry file is not modelled here.
 */
module Storage {
  import opened Text
  import opened Wrappers
  import opened Records
  import opened Sorting

  /** `SortConfigs`: by project ("" read as "General"), then by name, ignoring case. */
  function SortConfigs(configs: seq<ConfigEntry>): (sorted: seq<ConfigEntry>)
    ensures |sorted| == |configs| && multiset(sorted) == multiset(configs)
    ensures forall i, j :: 0 <= i < j < |sorted| ==>
      KeyAtMost(ToLower(DisplayProject(sorted[i])), ToLower(sorted[i].name),
                ToLower(DisplayProject(sorted[j])), ToLower(sorted[j].name))
  {
    var r := Sort(ProjectThenName, configs);
    SortedAllPairs(ProjectThenName, r);
    forall i, j | 0 <= i < j < |r|
      ensures KeyAtMost(ToLower(DisplayProject(r[i])), ToLower(r[i].name),
                        ToLower(DisplayProject(r[j])), ToLower(r[j].name))
    {
      NotKeyedLessIsKeyAtMost(DisplayProject(r[i]), DisplayProject(r[j]), r[i].name, r[j].name);
    }
    r
  }

  /** `SortByRecentlyOpened`: most recently opened first. */
  function SortByRecentlyOpened(configs: seq<ConfigEntry>): (sorted: seq<ConfigEntry>)
    ensures |sorted| == |configs| && multiset(sorted) == multiset(configs)
    ensures forall i, j :: 0 <= i < j < |sorted| ==> sorted[i].lastOpened >= sorted[j].lastOpened
  {
    var r := Sort(RecentlyOpened, configs);
    SortedAllPairs(RecentlyOpened, r);
    r
  }

  /** `SortByName`: alphabetical by name, ignoring case. */
  function SortByName(configs: seq<ConfigEntry>): (sorted: seq<ConfigEntry>)
    ensures |sorted| == |configs| && multiset(sorted) == multiset(configs)
    ensures forall i, j :: 0 <= i < j < |sorted| ==>
      LessOrEqual(ToLower(sorted[i].name), ToLower(sorted[j].name))
  {
    var r := Sort(ByName, configs);
    SortedAllPairs(ByName, r);
    forall i, j | 0 <= i < j < |r|
      ensures LessOrEqual(ToLower(r[i].name), ToLower(r[j].name))
    {
      NotLessIsLessOrEqual(ToLower(r[i].name), ToLower(r[j].name));
    }
    r
  }

  /** `SortByType`: by type, then by name, both ignoring case. */
  function SortByType(configs: seq<ConfigEntry>): (sorted: seq<ConfigEntry>)
    ensures |sorted| == |configs| && multiset(sorted) == multiset(configs)
    ensures forall i, j :: 0 <= i < j < |sorted| ==>
      KeyAtMost(ToLower(sorted[i].fileType), ToLower(sorted[i].name),
                ToLower(sorted[j].fileType), ToLower(sorted[j].name))
  {
    var r := Sort(ByType, configs);
    SortedAllPairs(ByType, r);
    forall i, j | 0 <= i < j < |r|
      ensures KeyAtMost(ToLower(r[i].fileType), ToLower(r[i].name),
                        ToLower(r[j].fileType), ToLower(r[j].name))
    {
      NotKeyedLessIsKeyAtMost(r[i].fileType, r[j].fileType, r[i].name, r[j].name);
    }
    r
  }

  /** `SortByPath`: alphabetical by path, ignoring case. */
  function SortByPath(configs: seq<ConfigEntry>): (sorted: seq<ConfigEntry>)
    ensures |sorted| == |configs| && multiset(sorted) == multiset(configs)
    ensures forall i, j :: 0 <= i < j < |sorted| ==>
      LessOrEqual(ToLower(sorted[i].path), ToLower(sorted[j].path))
  {
    var r := Sort(ByPath, configs);
    SortedAllPairs(ByPath, r);
    forall i, j | 0 <= i < j < |r|
      ensures LessOrEqual(ToLower(r[i].path), ToLower(r[j].path))
    {
      NotLessIsLessOrEqual(ToLower(r[i].path), ToLower(r[j].path));
    }
    r
  }

  /**
   * `FindDuplicates`: the first entry whose Path is exactly `path` (case
   * and "~" taken literally), or nothing.
   */
  method FindDuplicates(configs: seq<ConfigEntry>, path: string) returns (dup: Option<ConfigEntry>)
    ensures dup.None? <==> forall i :: 0 <= i < |configs| ==> configs[i].path != path
    ensures dup.Some? ==>
      (exists i :: 0 <= i < |configs| && configs[i] == dup.value && configs[i].path == path &&
         (forall k :: 0 <= k < i ==> configs[k].path != path))
  {
    var i := 0;
    while i < |configs|
      invariant 0 <= i <= |configs|
      invariant forall k :: 0 <= k < i ==> configs[k].path != path
    {
      if configs[i].path == path {
        return Some(configs[i]);
      }
      i := i + 1;
    }
    return None;
  }

  /**
   * Entries whose projects are equal ignoring case sit together in the
   * sorted list: nothing from another group falls between two of them.
   */
  lemma ProjectGroupsContiguous(configs: seq<ConfigEntry>, i: int, k: int, j: int)
    requires 0 <= i < k < j < |SortConfigs(configs)|
    requires EqualFold(DisplayProject(SortConfigs(configs)[i]), DisplayProject(SortConfigs(configs)[j]))
    ensures EqualFold(DisplayProject(SortConfigs(configs)[k]), DisplayProject(SortConfigs(configs)[i]))
  {
    var s := SortConfigs(configs);
    var pi, pk, pj := ToLower(DisplayProject(s[i])), ToLower(DisplayProject(s[k])), ToLower(DisplayProject(s[j]));
    assert KeyAtMost(pi, ToLower(s[i].name), pk, ToLower(s[k].name));
    assert KeyAtMost(pk, ToLower(s[k].name), pj, ToLower(s[j].name));
    if pi != pk {
      if pk != pj {
        LessTransitive(pi, pk, pj);
      }
      LessIrreflexive(pi);
    }
  }
}

=== FILE: table.dfy ===
/**
 * The list view's rows (`updateTable`): the entries sorted by project then
 * name, a header row inserted whenever the displayed project changes, and
 * the parallel index map from display rows to sorted-list positions, with
 * -1 marking a header.
 */
module Table {
  import opened Records
  import opened Sorting
  import opened Storage
  import opened Layout

  /** One table row: its cell texts, one per visible column. */
  type Row = seq<string>

  /** The folder glyph that prefixes a project header. */
  const FolderIcon: string := "\U{1F4C2}"

  /** A header row: the project group in the first cell, the other cells blank. */
  function HeaderCells(group: string, width: nat): (row: Row)
    requires width > 0
    ensures |row| == width && row[0] == FolderIcon + " " + group
    ensures forall i :: 1 <= i < width ==> row[i] == ""
  {
    [FolderIcon + " " + group] + seq(width - 1, _ => "")
  }

  /** All five cell values of an entry, in column order; Project shows the display group. */
  function FullRow(c: ConfigEntry): seq<string> {
    [c.name, DisplayProject(c), c.fileType, c.path, c.description]
  }

  /** The row-projection loop: each visible column picks its field by title. */
  function RowCells(c: ConfigEntry, cols: seq<Column>): (row: Row)
    ensures |row| == |cols|
  {
    seq(|cols|, i requires 0 <= i < |cols| =>
      var k := GetColumnIndex(cols[i].title);
      if 0 <= k < 5 then FullRow(c)[k] else "")
  }

  /**
   * A window of the standard columns shows the matching slice of the
   * entry's fields, whatever the columns' widths.
   */
  lemma RowCellsOfWindow(c: ConfigEntry, cols: seq<Column>, start: nat)
    requires start + |cols| <= |ColumnTitles|
    requires forall i :: 0 <= i < |cols| ==> cols[i].title == ColumnTitles[start + i]
    ensures RowCells(c, cols) == FullRow(c)[start..start + |cols|]
  {
    forall i | 0 <= i < |cols|
      ensures RowCells(c, cols)[i] == FullRow(c)[start + i]
    {
      ColumnIndexOfTitle(start + i);
    }
  }

  datatype TableView = TableView(rows: seq<Row>, indices: seq<int>)

  /** The display group the row before sorted position j carried (`last` before the first). */
  function Previous(recs: seq<ConfigEntry>, last: string, j: int): string
    requires 0 <= j < |recs|
  {
    if j == 0 then last else DisplayProject(recs[j - 1])
  }

  /**
   * The loop of `updateTable` from some point on: `last` is the group of
   * the most recent header and `base` the sorted position of `recs[0]`.
   */
  function Build(recs: seq<ConfigEntry>, cols: seq<Column>, last: string, base: nat): (t: TableView)
    requires |recs| == 0 || |cols| > 0
    ensures |t.rows| == |t.indices|
    ensures forall d :: 0 <= d < |t.indices| ==> t.indices[d] == -1 || base <= t.indices[d] < base + |recs|
    decreases |recs|
  {
    if |recs| == 0 then TableView([], [])
    else
      var group := DisplayProject(recs[0]);
      var rest := Build(recs[1..], cols, group, base + 1);
      var row := RowCells(recs[0], cols);
      if group != last then
        TableView([HeaderCells(group, |cols|), row] + rest.rows, [-1, base] + rest.indices)
      else
        TableView([row] + rest.rows, [base] + rest.indices)
  }

  /** `updateTable`: the rows and index map for the current entries and visible columns. */
  function UpdateTable(configs: seq<ConfigEntry>, cols: seq<Column>): (t: TableView)
    requires |configs| == 0 || |cols| > 0
    ensures |t.rows| == |t.indices|
    ensures forall d :: 0 <= d < |t.indices| ==> -1 <= t.indices[d] < |configs|
  {
    Build(SortConfigs(configs), cols, "", 0)
  }

  /* ---------------------------------------------------------------------- */
  /* Shape of the index map                                                  */
  /* ---------------------------------------------------------------------- */

  /** The non-header entries of an index map, in display order. */
  function RecordEntries(indices: seq<int>): seq<int> {
    if |indices| == 0 then []
    else (if indices[0] == -1 then [] else [indices[0]]) + RecordEntries(indices[1..])
  }

  lemma {:induction false} RecordEntriesAppend(a: seq<int>, b: seq<int>)
    ensures RecordEntries(a + b) == RecordEntries(a) + RecordEntries(b)
    decreases |a|
  {
    if |a| == 0 {
      assert a + b == b;
    } else {
      assert (a + b)[1..] == a[1..] + b;
      RecordEntriesAppend(a[1..], b);
    }
  }

  function Range(lo: int, n: nat): seq<int> {
    seq(n, i => lo + i)
  }

  /** The record rows refer to base, base+1, ..., in display order. */
  lemma BuildRecordEntries(recs: seq<ConfigEntry>, cols: seq<Column>, last: string, base: nat)
    requires |cols| > 0
    ensures RecordEntries(Build(recs, cols, last, base).indices) == Range(base, |recs|)
  {
    BuildIndexMap(recs, cols, last, base);
    IndexMapRecordEntries(recs, last, base);
  }

  lemma {:induction false} IndexMapRecordEntries(recs: seq<ConfigEntry>, last: string, base: nat)
    ensures RecordEntries(IndexMap(recs, last, base)) == Range(base, |recs|)
    decreases |recs|
  {
    if |recs| > 0 {
      var group := DisplayProject(recs[0]);
      var rest := IndexMap(recs[1..], group, base + 1);
      IndexMapRecordEntries(recs[1..], group, base + 1);
      var head: seq<int> := if group != last then [-1, base as int] else [base as int];
      assert IndexMap(recs, last, base) == head + rest;
      RecordEntriesOfHead(base);
      RecordEntriesAppend(head, rest);
      RangeCons(base, |recs|);
    }
  }

  lemma RangeCons(lo: int, n: nat)
    requires n > 0
    ensures Range(lo, n) == [lo] + Range(lo + 1, n - 1)
  {
    forall i | 0 <= i < n
      ensures Range(lo, n)[i] == ([lo] + Range(lo + 1, n - 1))[i]
    {
    }
  }

  lemma RecordEntriesOfHead(base: int)
    requires base >= 0
    ensures RecordEntries([base]) == [base] && RecordEntries([-1, base]) == [base]
  {
    assert [base][1..] == [] && [-1, base][1..] == [base];
  }

  /** Every -1 is followed by a record entry. */
  predicate HeadersPrecedeRecords(indices: seq<int>) {
    forall d :: 0 <= d < |indices| && indices[d] == -1 ==> d + 1 < |indices| && indices[d + 1] != -1
  }

  /** Record rows show the cells of the entry their index-map entry names. */
  predicate RecordRowsMatch(recs: seq<ConfigEntry>, cols: seq<Column>, base: nat, t: TableView) {
    forall d :: 0 <= d < |t.indices| && d < |t.rows| && base <= t.indices[d] < base + |recs| ==>
      t.rows[d] == RowCells(recs[t.indices[d] - base], cols)
  }

  /** Header rows show the display project of the record below them. */
  predicate HeaderRowsMatch(recs: seq<ConfigEntry>, cols: seq<Column>, base: nat, t: TableView)
    requires |cols| > 0
  {
    forall d :: (0 <= d < |t.indices| - 1 && d < |t.rows| && t.indices[d] == -1 &&
                 base <= t.indices[d + 1] < base + |recs|) ==>
      t.rows[d] == HeaderCells(DisplayProject(recs[t.indices[d + 1] - base]), |cols|)
  }

  /** A record has a -1 just above it exactly when its display project differs from the previous one. */
  predicate HeadersAtChanges(recs: seq<ConfigEntry>, last: string, base: nat, indices: seq<int>) {
    && (0 < |indices| && base <= indices[0] < base + |recs| ==>
          DisplayProject(recs[indices[0] - base]) == Previous(recs, last, indices[0] - base))
    && (forall c, d {:trigger indices[c], indices[d]} ::
          0 <= c < |indices| && 0 < d < |indices| && d == c + 1 && base <= indices[d] < base + |recs| ==>
            (indices[c] == -1 <==> DisplayProject(recs[indices[d] - base]) != Previous(recs, last, indices[d] - base)))
  }

  /**
   * How one loop iteration extends the view: `t` is the optional header
   * (h == 1) and the record row for recs[0], followed by `rest`.
   */
  predicate Extends(recs: seq<ConfigEntry>, cols: seq<Column>, last: string, base: nat, h: int, t: TableView, rest: TableView)
    requires |cols| > 0 && |recs| > 0
  {
    && h == (if DisplayProject(recs[0]) != last then 1 else 0)
    && |t.rows| == |t.indices| && |rest.rows| == |rest.indices|
    && |t.indices| == h + 1 + |rest.indices|
    && (forall d :: 0 <= d < |rest.indices| ==> rest.indices[d] == -1 || base + 1 <= rest.indices[d] < base + |recs|)
    && (h == 1 ==> t.indices[0] == -1 && t.rows[0] == HeaderCells(DisplayProject(recs[0]), |cols|))
    && t.indices[h] == base && t.rows[h] == RowCells(recs[0], cols)
    && (forall d :: h < d < |t.indices| ==>
          t.indices[d] == rest.indices[d - h - 1] && t.rows[d] == rest.rows[d - h - 1])
  }

  lemma BuildStep(recs: seq<ConfigEntry>, cols: seq<Column>, last: string, base: nat) returns (h: int)
    requires |cols| > 0 && |recs| > 0
    ensures Extends(recs, cols, last, base, h, Build(recs, cols, last, base),
                    Build(recs[1..], cols, DisplayProject(recs[0]), base + 1))
  {
    h := if DisplayProject(recs[0]) != last then 1 else 0;
  }

  lemma {:induction false} BuildHeadersPrecedeRecords(recs: seq<ConfigEntry>, cols: seq<Column>, last: string, base: nat)
    requires |cols| > 0
    ensures HeadersPrecedeRecords(Build(recs, cols, last, base).indices)
    decreases |recs|
  {
    if |recs| > 0 {
      var group := DisplayProject(recs[0]);
      BuildHeadersPrecedeRecords(recs[1..], cols, group, base + 1);
      var h := BuildStep(recs, cols, last, base);
    }
  }

  lemma RecordRowsStep(recs: seq<ConfigEntry>, cols: seq<Column>, last: string, base: nat, h: int, t: TableView, rest: TableView)
    requires |cols| > 0 && |recs| > 0
    requires Extends(recs, cols, last, base, h, t, rest)
    requires RecordRowsMatch(recs[1..], cols, base + 1, rest)
    ensures RecordRowsMatch(recs, cols, base, t)
  {
    forall d | 0 <= d < |t.indices| && d < |t.rows| && base <= t.indices[d] < base + |recs|
      ensures t.rows[d] == RowCells(recs[t.indices[d] - base], cols)
    {
      if d > h {
        var d' := d - h - 1;
        assert recs[1..][rest.indices[d'] - (base + 1)] == recs[t.indices[d] - base];
      }
    }
  }

  lemma {:induction false} BuildRecordRows(recs: seq<ConfigEntry>, cols: seq<Column>, last: string, base: nat)
    requires |cols| > 0
    ensures RecordRowsMatch(recs, cols, base, Build(recs, cols, last, base))
    decreases |recs|
  {
    if |recs| > 0 {
      var group := DisplayProject(recs[0]);
      BuildRecordRows(recs[1..], cols, group, base + 1);
      var h := BuildStep(recs, cols, last, base);
      RecordRowsStep(recs, cols, last, base, h, Build(recs, cols, last, base), Build(recs[1..], cols, group, base + 1));
    }
  }

  lemma HeaderRowsStep(recs: seq<ConfigEntry>, cols: seq<Column>, last: string, base: nat, h: int, t: TableView, rest: TableView)
    requires |cols| > 0 && |recs| > 0
    requires Extends(recs, cols, last, base, h, t, rest)
    requires HeadersPrecedeRecords(rest.indices)
    requires HeaderRowsMatch(recs[1..], cols, base + 1, rest)
    ensures HeaderRowsMatch(recs, cols, base, t)
  {
    forall d | 0 <= d < |t.indices| - 1 && d < |t.rows| && t.indices[d] == -1 &&
        base <= t.indices[d + 1] < base + |recs|
      ensures t.rows[d] == HeaderCells(DisplayProject(recs[t.indices[d + 1] - base]), |cols|)
    {
      if d > h {
        var d' := d - h - 1;
        assert recs[1..][rest.indices[d' + 1] - (base + 1)] == recs[t.indices[d + 1] - base];
      }
    }
  }

  lemma {:induction false} BuildHeaderRows(recs: seq<ConfigEntry>, cols: seq<Column>, last: string, base: nat)
    requires |cols| > 0
    ensures HeaderRowsMatch(recs, cols, base, Build(recs, cols, last, base))
    decreases |recs|
  {
    if |recs| > 0 {
      var group := DisplayProject(recs[0]);
      BuildHeaderRows(recs[1..], cols, group, base + 1);
      BuildHeadersPrecedeRecords(recs[1..], cols, group, base + 1);
      var h := BuildStep(recs, cols, last, base);
      HeaderRowsStep(recs, cols, last, base, h, Build(recs, cols, last, base), Build(recs[1..], cols, group, base + 1));
    }
  }

  lemma HeadersStep(recs: seq<ConfigEntry>, cols: seq<Column>, last: string, base: nat, h: int, t: TableView, rest: TableView)
    requires |cols| > 0 && |recs| > 0
    requires Extends(recs, cols, last, base, h, t, rest)
    requires HeadersAtChanges(recs[1..], DisplayProject(recs[0]), base + 1, rest.indices)
    ensures HeadersAtChanges(recs, last, base, t.indices)
  {
    if 0 < |t.indices| && base <= t.indices[0] < base + |recs| {
      HeadersStepAt(recs, cols, last, base, h, t, rest, 0);
    }
    forall c, d | 0 <= c && d == c + 1 && d < |t.indices| && base <= t.indices[d] < base + |recs|
      ensures t.indices[c] == -1 <==>
        DisplayProject(recs[t.indices[d] - base]) != Previous(recs, last, t.indices[d] - base)
    {
      HeadersStepAt(recs, cols, last, base, h, t, rest, d);
    }
  }

  lemma HeadersStepAt(recs: seq<ConfigEntry>, cols: seq<Column>, last: string, base: nat, h: int, t: TableView, rest: TableView, d: int)
    requires |cols| > 0 && |recs| > 0
    requires Extends(recs, cols, last, base, h, t, rest)
    requires HeadersAtChanges(recs[1..], DisplayProject(recs[0]), base + 1, rest.indices)
    requires 0 <= d < |t.indices| && base <= t.indices[d] < base + |recs|
    ensures (d > 0 && t.indices[d - 1] == -1) <==>
      DisplayProject(recs[t.indices[d] - base]) != Previous(recs, last, t.indices[d] - base)
  {
    if d > h {
      HeadersStepRest(recs, cols, last, base, h, t, rest, d);
    } else {
      HeadersStepFirst(recs, cols, last, base, h, t, rest, d);
    }
  }

  /** The first record's row has a header above it exactly when its project differs from `last`. */
  lemma HeadersStepFirst(recs: seq<ConfigEntry>, cols: seq<Column>, last: string, base: nat, h: int, t: TableView, rest: TableView, d: int)
    requires |cols| > 0 && |recs| > 0
    requires Extends(recs, cols, last, base, h, t, rest)
    requires 0 <= d <= h && base <= t.indices[d] < base + |recs|
    ensures (d > 0 && t.indices[d - 1] == -1) <==>
      DisplayProject(recs[t.indices[d] - base]) != Previous(recs, last, t.indices[d] - base)
  {
    assert d == h && t.indices[d] == base;
  }

  /** A row of `t` that comes from `rest` keeps its header status. */
  lemma HeadersStepRest(recs: seq<ConfigEntry>, cols: seq<Column>, last: string, base: nat, h: int, t: TableView, rest: TableView, d: int)
    requires |cols| > 0 && |recs| > 0
    requires Extends(recs, cols, last, base, h, t, rest)
    requires HeadersAtChanges(recs[1..], DisplayProject(recs[0]), base + 1, rest.indices)
    requires h < d < |t.indices| && t.indices[d] != -1
    ensures base + 1 <= t.indices[d] < base + |recs|
    ensures (t.indices[d - 1] == -1) <==>
      DisplayProject(recs[t.indices[d] - base]) != Previous(recs, last, t.indices[d] - base)
  {
    ExtendsAt(recs, cols, last, base, h, t, rest, d);
    ExtendsAt(recs, cols, last, base, h, t, rest, d - 1);
    HeaderStatusCarries(recs, last, base, h, t.indices, rest.indices, d);
  }

  /**
   * The index-map core of the step above: `ti` is `ri` shifted down by
   * h + 1 rows, with the first record's row `base` at position h.
   */
  lemma HeaderStatusCarries(recs: seq<ConfigEntry>, last: string, base: nat, h: int, ti: seq<int>, ri: seq<int>, d: int)
    requires |recs| > 0 && 0 <= h < d < |ti| && d - h - 1 < |ri|
    requires ti[d] == ri[d - h - 1] && base + 1 <= ri[d - h - 1] < base + |recs|
    requires ti[d - 1] == if d - 1 == h then base else ri[d - h - 2]
    requires HeadersAtChanges(recs[1..], DisplayProject(recs[0]), base + 1, ri)
    ensures (ti[d - 1] == -1) <==>
      DisplayProject(recs[ti[d] - base]) != Previous(recs, last, ti[d] - base)
  {
    var d' := d - h - 1;
    PreviousOfTail(recs, last, ri[d'] - (base + 1));
    HeadersAtChangesAt(recs[1..], DisplayProject(recs[0]), base + 1, ri, d');
  }

  /** Where `t` and `rest` line up, and what `t` holds at the first record's row. */
  lemma ExtendsAt(recs: seq<ConfigEntry>, cols: seq<Column>, last: string, base: nat, h: int, t: TableView, rest: TableView, d: int)
    requires |cols| > 0 && |recs| > 0
    requires Extends(recs, cols, last, base, h, t, rest)
    requires 0 <= d < |t.indices|
    ensures 0 <= h <= 1 && |t.indices| == h + 1 + |rest.indices|
    ensures d == h ==> t.indices[d] == base
    ensures d > h ==> t.indices[d] == rest.indices[d - h - 1]
    ensures d > h ==> (rest.indices[d - h - 1] == -1 || base + 1 <= rest.indices[d - h - 1] < base + |recs|)
  {
  }

  /** Dropping the first record shifts positions by one and makes its project the previous one. */
  lemma PreviousOfTail(recs: seq<ConfigEntry>, last: string, j: int)
    requires 0 <= j < |recs| - 1
    ensures recs[1..][j] == recs[j + 1]
    ensures Previous(recs[1..], DisplayProject(recs[0]), j) == Previous(recs, last, j + 1)
  {
  }

  /** One instance of `HeadersAtChanges`. */
  lemma HeadersAtChangesAt(recs: seq<ConfigEntry>, last: string, base: nat, indices: seq<int>, d: int)
    requires HeadersAtChanges(recs, last, base, indices)
    requires 0 <= d < |indices| && base <= indices[d] < base + |recs|
    ensures (d > 0 && indices[d - 1] == -1) <==>
      DisplayProject(recs[indices[d] - base]) != Previous(recs, last, indices[d] - base)
  {
  }

  lemma {:induction false} BuildHeaders(recs: seq<ConfigEntry>, cols: seq<Column>, last: string, base: nat)
    requires |cols| > 0
    ensures HeadersAtChanges(recs, last, base, Build(recs, cols, last, base).indices)
    decreases |recs|
  {
    if |recs| > 0 {
      var group := DisplayProject(recs[0]);
      BuildHeaders(recs[1..], cols, group, base + 1);
      var h := BuildStep(recs, cols, last, base);
      HeadersStep(recs, cols, last, base, h, Build(recs, cols, last, base), Build(recs[1..], cols, group, base + 1));
    }
  }

  /** Every sorted position has a record row. */
  lemma {:induction false} RecordPosition(recs: seq<ConfigEntry>, cols: seq<Column>, last: string, base: nat, j: int)
    returns (d: int)
    requires |cols| > 0
    requires 0 <= j < |recs|
    ensures 0 <= d < |Build(recs, cols, last, base).indices|
    ensures Build(recs, cols, last, base).indices[d] == base + j
    decreases |recs|
  {
    var group := DisplayProject(recs[0]);
    var h := BuildStep(recs, cols, last, base);
    if j == 0 {
      d := h;
    } else {
      var d' := RecordPosition(recs[1..], cols, group, base + 1, j - 1);
      d := h + 1 + d';
    }
  }

  /** The first record always gets a header: "" is never a display project. */
  lemma FirstRowIsHeader(configs: seq<ConfigEntry>, cols: seq<Column>)
    requires |cols| > 0
    requires |configs| > 0
    ensures UpdateTable(configs, cols).indices[0] == -1
  {
  }

  /* ---------------------------------------------------------------------- */
  /* The view as a whole                                                     */
  /* ---------------------------------------------------------------------- */

  /**
   * The shape of the index map `updateTable` leaves behind: one entry per
   * row; the record entries are 0, 1, ..., n-1 in order; every -1 sits
   * right above a record row and shows that record's display project; a -1
   * sits above a record exactly when its display project differs,
   * case-sensitively, from the previous record's; and every record row
   * shows its sorted entry.
   */
  lemma UpdateTableShape(configs: seq<ConfigEntry>, cols: seq<Column>)
    requires |cols| > 0
    ensures var t := UpdateTable(configs, cols);
      var sorted := SortConfigs(configs);
      && |t.rows| == |t.indices|
      && RecordEntries(t.indices) == Range(0, |configs|)
      && HeadersPrecedeRecords(t.indices)
      && HeadersAtChanges(sorted, "", 0, t.indices)
      && RecordRowsMatch(sorted, cols, 0, t)
      && HeaderRowsMatch(sorted, cols, 0, t)
  {
    var sorted := SortConfigs(configs);
    BuildRecordEntries(sorted, cols, "", 0);
    BuildHeadersPrecedeRecords(sorted, cols, "", 0);
    BuildHeaders(sorted, cols, "", 0);
    BuildRecordRows(sorted, cols, "", 0);
    BuildHeaderRows(sorted, cols, "", 0);
  }

  /**
   * Header detection is case-sensitive while sorting is not: projects
   * "Alpha", "alpha", "Alpha" (names a, b, c) stay in that order and each
   * record gets a header of its own.
   */
  lemma CaseVariantsRepeatHeaders(cols: seq<Column>)
    requires |cols| > 0
    ensures UpdateTable(CaseVariants(), cols).indices == [-1, 0, -1, 1, -1, 2]
  {
    var s := CaseVariants();
    CaseVariantsSorted();
    SortOfSorted(ProjectThenName, s);
    BuildCaseVariants(cols);
  }

  /** The index map of `Build` alone, without the cell texts. */
  function IndexMap(recs: seq<ConfigEntry>, last: string, base: int): seq<int>
    decreases |recs|
  {
    if |recs| == 0 then []
    else
      var group := DisplayProject(recs[0]);
      (if group != last then [-1, base] else [base]) + IndexMap(recs[1..], group, base + 1)
  }

  lemma {:induction false} BuildIndexMap(recs: seq<ConfigEntry>, cols: seq<Column>, last: string, base: nat)
    requires |cols| > 0
    ensures Build(recs, cols, last, base).indices == IndexMap(recs, last, base)
    decreases |recs|
  {
    if |recs| > 0 {
      BuildIndexMap(recs[1..], cols, DisplayProject(recs[0]), base + 1);
    }
  }

  lemma BuildCaseVariants(cols: seq<Column>)
    requires |cols| > 0
    ensures Build(CaseVariants(), cols, "", 0).indices == [-1, 0, -1, 1, -1, 2]
  {
    var s := CaseVariants();
    BuildIndexMap(s, cols, "", 0);
    IndexMapOfThree(s[0], s[1], s[2]);
    assert s == [s[0], s[1], s[2]];
  }

  /** Three records whose display projects each differ from the one before get three headers. */
  lemma IndexMapOfThree(a: ConfigEntry, b: ConfigEntry, c: ConfigEntry)
    requires DisplayProject(a) != DisplayProject(b) && DisplayProject(b) != DisplayProject(c)
    ensures IndexMap([a, b, c], "", 0) == [-1, 0, -1, 1, -1, 2]
  {
    assert [a, b, c][1..] == [b, c] && [b, c][1..] == [c] && [c][1..] == [];
    assert IndexMap([c], DisplayProject(b), 2) == [-1, 2];
    assert IndexMap([b, c], DisplayProject(a), 1) == [-1, 1, -1, 2];
  }

  /** Three entries whose projects differ only in case. */
  function CaseVariants(): seq<ConfigEntry> {
    [ConfigEntry("a", "/a", "txt", "Alpha", "", 0, []),
     ConfigEntry("b", "/b", "txt", "alpha", "", 0, []),
     ConfigEntry("c", "/c", "txt", "Alpha", "", 0, [])]
  }

  lemma CaseVariantsSorted()
    ensures Sorted(ProjectThenName, CaseVariants())
  {
    var s := CaseVariants();
    assert Text.ToLower("Alpha") == "alpha" == Text.ToLower("alpha");
    assert Text.ToLower("a") == "a" && Text.ToLower("b") == "b" && Text.ToLower("c") == "c";
    assert !Text.Less("b", "a") && !Text.Less("c", "b");
    assert !Before(ProjectThenName, s[1], s[0]);
    assert !Before(ProjectThenName, s[2], s[1]);
  }
}

=== FILE: text.dfy ===
/**
 * Strings as the registry compares them: ASCII lower-casing (the model of
 * `strings.ToLower`), case-insensitive equality (`strings.EqualFold`) and
 * Go's `<` on strings, which is lexicographic on the encoded characters.
 */
module Text {

  /** Lower-cases one character; only 'A'..'Z' change. */
  function LowerChar(c: char): char {
    if 'A' <= c <= 'Z' then (c as int + 32) as char else c
  }

  /** The model of `strings.ToLower`, restricted to ASCII letters. */
  function ToLower(s: string): (r: string)
    ensures |r| == |s|
    ensures forall i :: 0 <= i < |s| ==> r[i] == LowerChar(s[i])
  {
    seq(|s|, i requires 0 <= i < |s| => LowerChar(s[i]))
  }

  /** The model of `strings.EqualFold`. */
  predicate EqualFold(a: string, b: string) {
    ToLower(a) == ToLower(b)
  }

  /** Go's `a < b` on strings: lexicographic, a proper prefix comes first. */
  predicate Less(a: string, b: string)
    decreases |a|
  {
    if |a| == 0 then |b| > 0
    else if |b| == 0 then false
    else if a[0] != b[0] then a[0] < b[0]
    else Less(a[1..], b[1..])
  }

  predicate LessOrEqual(a: string, b: string) {
    a == b || Less(a, b)
  }

  lemma LowerIdempotent(s: string)
    ensures ToLower(ToLower(s)) == ToLower(s)
  {
  }

  lemma {:induction false} LessIrreflexive(a: string)
    ensures !Less(a, a)
    decreases |a|
  {
    if |a| > 0 {
      LessIrreflexive(a[1..]);
    }
  }

  lemma {:induction false} LessAsymmetric(a: string, b: string)
    ensures Less(a, b) ==> !Less(b, a)
    decreases |a|
  {
    if |a| > 0 && |b| > 0 && a[0] == b[0] {
      LessAsymmetric(a[1..], b[1..]);
    }
  }

  lemma {:induction false} LessTransitive(a: string, b: string, c: string)
    requires Less(a, b) && Less(b, c)
    ensures Less(a, c)
    decreases |a|
  {
    if |a| > 0 && a[0] == b[0] && b[0] == c[0] {
      LessTransitive(a[1..], b[1..], c[1..]);
    }
  }

  /** Distinct strings are always ordered one way or the other. */
  lemma {:induction false} LessTotal(a: string, b: string)
    ensures a == b || Less(a, b) || Less(b, a)
    decreases |a|
  {
    if |a| > 0 && |b| > 0 && a[0] == b[0] {
      LessTotal(a[1..], b[1..]);
      if a[1..] == b[1..] {
        assert a == [a[0]] + a[1..] && b == [b[0]] + b[1..];
      }
    }
  }

  /** `!(b < a)` is `a <= b`: the form in which sortedness is stated. */
  lemma NotLessIsLessOrEqual(a: string, b: string)
    ensures !Less(b, a) <==> LessOrEqual(a, b)
  {
    LessTotal(a, b);
    LessIrreflexive(a);
    LessAsymmetric(a, b);
  }

  lemma LessOrEqualTransitive(a: string, b: string, c: string)
    requires LessOrEqual(a, b) && LessOrEqual(b, c)
    ensures LessOrEqual(a, c)
  {
    if a != b && b != c {
      LessTransitive(a, b, c);
    }
  }
}

=== FILE: wrappers.dfy ===
/** The optional value used where the source returns a nil-able pointer. */
module Wrappers {

  datatype Option<+T> = None | Some(value: T)
}
